=== FILE: README.md ===
# Grid optimisation core, modelled in Dafny

Grid_Optmize stores time-stamped grid samples (`GridState`: region, demand,
supply) and optimisation results (`OptimizationResult`). One engine reads a
newest sample, optionally filtered by region. It minimises the squared
imbalance `(x - demand)^2` starting from the sample's supply and appends
one result. Several front-ends reach that engine:

- a fallback agent runtime (`run_workflow`);
- a FastAPI chat endpoint and its workflow wrapper;
- an agent's input preprocessor;
- a NAT function.

The front-ends guard the engine with:

- a region allow-list;
- a name sanitiser;
- a recursive input validator;
- a region catalog, a test-data seeder and a configuration loader.

The project models that core as pure functions over immutable data:

| module | file | models |
|---|---|---|
| `Common` | common.dfy | `Option`, `Result`, the float renderings, `Square` |
| `Text` | text.dfy | ASCII `lower`, `strip`, `in` (substring), `split()` and their algebra |
| `Security` | security.dfy | `VALID_REGIONS`, `validate_region_access`, `sanitize_region_name`, `validate_input` |
| `Store` | store.dfy | the two tables as sequences; the "filter by region, newest first" query |
| `Engine` | engine.dfy | `optimize_grid`, `get_latest_optimization` of grid_optimization/core/operations.py |
| `GridTools` | grid_tools.dfy | the same tools as one table scan, proved equal to `Engine` |
| `RuntimeFallback` | runtime_fallback.dfy | `initialize`/`shutdown`, `run_workflow` routing, `_extract_region` |
| `Deploy` | deploy.dfy | `chat_endpoint` classification and replies, `workflow_invoke` |
| `Agents` | agents.dfy | `preprocess_input` |
| `GridFunction` | grid_function.dfy | region extraction and error handling of `GridOptimizationFunction.__call__` |
| `Catalog` | catalog.dfy | `RegionInfo`, `AVAILABLE_REGIONS`, `REGION_NAMES` |
| `Seed` | seed.dfy | `init_test_data` |
| `Config` | config.dfy | the environment merge of `load_config`, `get_database_url`, `get_config` |

Modelling choices:

- **Timestamps and the minimiser.** Timestamps are integers (seconds). SciPy's
  `minimize` is an uninterpreted function `(demand, seed supply) -> estimate`.
  Every property of the engine holds for any estimate, because the code
  recomputes `losses` from it.
- **"Latest".** "Newest first, take the first" is modelled as "any row of
  greatest timestamp among those the filter keeps" (`Store.IsLatest`). The
  database does not fix which of several equal-timestamp rows it returns.
  `Store.Latest` and the one-pass scans of `GridTools` both keep the first
  such row in table order, and `Store.ScanIsLatest` and the `GridTools`
  equalities rely on that shared choice. The engine's and the front-ends'
  contracts promise only some row of greatest timestamp.
- **Region filter.** The filter is applied only for a truthy region (not
  `None`, not `""`) and is exact string equality (`Store.Selects`).
- **Text.** Strings are ASCII: `lower()`, `isalnum()`, `isspace()` and
  `split()` are modelled on ASCII characters only.
- **Number rendering.** The fixed-point and ISO renderings of numbers and
  times in reply texts are parameters (`Common.Render`). The reply texts
  are otherwise spelled out.
- **Python's `None` and non-string arguments.** These are `Option.None`
  where the code checks for them.
- **Errors.** Exceptions the code raises are `Result.Failure` values.
- **Side effects.** Database effects are returned as the new `Db`; reads
  return no database.

## Model

| member | source | states |
|---|---|---|
| Security.ValidateRegionAccess | grid_optimization/core/security.py:13-48 | a missing or empty region is refused; otherwise access is granted exactly when the stripped, lower-cased name is one of the eight allow-listed names |
| Security.ValidationIgnoresCase | grid_optimization/core/security.py:39-44 | two names equal after lower-casing get the same answer |
| Security.ValidationIgnoresPadding | grid_optimization/core/security.py:39-44 | whitespace before and after a name never changes the answer (" US-West " is admitted like "us-west") |
| Security.AcceptsUsWest | grid_optimization/core/security.py:13-22 | "us-west" is admitted |
| Security.AcceptsTestRegion | grid_optimization/core/security.py:13-22 | "test-region" is admitted |
| Security.RejectsInvalidRegion | grid_optimization/core/security.py:42-48 | "invalid-region" is refused |
| Security.RejectsPgae | grid_optimization/core/security.py:13-22 | "pgae" is not on the allow-list and is refused |
| Security.NotAllowListed | grid_optimization/core/security.py:13-22 | a name of a length no allow-listed name has, or of length 4 not starting with `a`, is not on the allow-list |
| Security.Take | grid_optimization/core/security.py:193 | Python slicing `s[:n]` is the prefix of exactly `n` characters of a longer input, and keeps a short input whole |
| Security.SanitizeRegionName | grid_optimization/core/security.py:186-196 | a missing or empty input, or one of which no character survives the filter, gives "default"; otherwise the result is exactly the first min(50, kept) characters of the filtered, lower-cased input, in order, so it is non-empty, at most 50 long and made only of lower-case letters, digits, `-` and `_` |
| Security.SanitizeNothingKept | grid_optimization/core/security.py:190-196 | when no character is alphanumeric, `-` or `_`, the result is "default" |
| Security.SanitizeIdempotent | grid_optimization/core/security.py:190-196 | sanitising a sanitised name returns it unchanged |
| Security.SanitizeAgreesWithValidation | grid_optimization/core/security.py:39-42 | for every admitted name, sanitising gives exactly the stripped, lower-cased name validation looked up |
| Security.SanitizeAllowListed | grid_optimization/core/security.py:186-196 | a name whose stripped, lower-cased form is allow-listed sanitises to exactly that form |
| Security.SanitizeMixedCase | grid_optimization/core/security.py:190 | "US-West" sanitises to "us-west" |
| Security.SanitizeDropsPunctuation | grid_optimization/core/security.py:190-196 | a run of characters other than alphanumerics, `-` and `_` between two safe names of at most 50 characters together vanishes ("test@#$%region" gives "testregion") |
| Security.SanitizeIgnoresDropped | grid_optimization/core/security.py:190-196 | removing a run of dropped characters from anywhere in any input never changes the sanitised name |
| Security.KeepSafeAppend | grid_optimization/core/security.py:190 | the character filter of a concatenation is the concatenation of the filters: kept characters keep their order |
| Security.SanitizeKeepsFirst | grid_optimization/core/security.py:190-193 | the cut keeps the first 50 kept characters: once a prefix of the input holds 50 of them, no text after it changes the result |
| Security.KeepSafeDrops | grid_optimization/core/security.py:190 | the character filter removes a run of dropped characters between two runs of safe ones and keeps both runs |
| Security.ValidateInput | grid_optimization/core/security.py:137-169 | `None` is refused, non-container non-string values are accepted, a string is accepted exactly when it is within the limit and holds none of the four dangerous patterns in any case |
| Security.ValidateInputMonotone | grid_optimization/core/security.py:155-167 | raising the length limit never turns an accepted value, however nested, into a refused one |
| Security.ScriptTagRejected | grid_optimization/core/security.py:148-153 | a string containing "<script" in any letter case is refused at every limit |
| Security.DictKeyLimit | grid_optimization/core/security.py:156-161 | adding an entry with a string key to any dict keeps it accepted exactly when the key is within a tenth of the limit and safe and the value passes at the full limit |
| Security.DictEntriesChecked | grid_optimization/core/security.py:156-161 | a dict of any number of entries is accepted exactly when every key passes at a tenth of the limit and every value at the full limit |
| Security.ListItemsChecked | grid_optimization/core/security.py:164-167 | a list is accepted exactly when every item is accepted at the full limit |
| Security.ListConcat | grid_optimization/core/security.py:164-167 | two lists joined are accepted exactly when both are |
| Store.NewGridState | grid_optimization/core/database.py:9-18 | a new sample carries the given fields and the table defaults 0.0 load, 1000.0 capacity, 85.0 efficiency |
| Store.Matching | grid_optimization/core/operations.py:38-39 | the filtered rows are exactly the rows whose region the truthy-region filter selects |
| Store.Newest | grid_optimization/core/operations.py:40 | the newest-first query answers nothing only on an empty table, otherwise a row with no later row |
| Store.Latest | grid_optimization/core/operations.py:37-40 | the filtered newest-first query is empty exactly when no row passes the filter, and otherwise answers a selected row of greatest timestamp |
| Store.ScanIsLatest | src/grid_core/tools/grid_tools.py:31-34 | a single pass that keeps a selected row when it is strictly newer answers exactly what filter-then-newest answers |
| Store.LatestOfNewerAppend | grid_optimization/core/operations.py:40 | a selected row appended strictly later than every stored row is what the filtered newest-first query answers |
| Store.LatestUniqueWhenTimesDistinct | grid_optimization/core/operations.py:40 | with distinct timestamps every admissible answer of the query is the same row |
| Engine.OptimizeGrid | grid_optimization/core/operations.py:37-75 | the sample table is never written; with no selected sample the error dict "No grid state data found." is answered and nothing changes; otherwise exactly one row is appended, holding the reply, whose losses are the square of the estimate minus the demand (so never negative) and whose region and demand are those of a newest selected sample |
| Engine.GetLatestOptimization | grid_optimization/core/operations.py:89-106 | read-only; answers "No optimization result found." exactly when no result passes the filter, otherwise the fields of a newest selected result |
| Engine.OptimizeThenReadBack | grid_optimization/core/operations.py:58-104 | once the clock is past every stored result, the result just written is what the latest-result query reads back |
| Engine.OptimizeTwiceAppendsTwice | grid_optimization/core/operations.py:58-68 | two successful calls append two rows and leave every earlier row in place |
| GridTools.ScanLatestState | src/grid_core/tools/grid_tools.py:28-35 | the loop over the sample table answers the filtered newest-first query |
| GridTools.ScanLatestResult | src/grid_core/tools/grid_tools.py:83-89 | the loop over the result table answers the filtered newest-first query |
| GridTools.OptimizeGrid | src/grid_core/tools/grid_tools.py:18-69 | the tool's reply and database effect equal those of the engine's `optimize_grid` |
| GridTools.ShowLastOptimization | src/grid_core/tools/grid_tools.py:72-99 | the tool's reply equals the engine's `get_latest_optimization` |
| RuntimeFallback.NewRuntime | src/grid_core/runtime_fallback.py:39-42 | a new runtime is not initialised |
| RuntimeFallback.Initialize | src/grid_core/runtime_fallback.py:50-54 | `initialize` leaves the runtime initialised |
| RuntimeFallback.Shutdown | src/grid_core/runtime_fallback.py:56-59 | `shutdown` leaves it not initialised |
| RuntimeFallback.ReplayInitializedIffLastInitialize | src/grid_core/runtime_fallback.py:50-59 | after any sequence of lifecycle calls from a new runtime, it is initialised exactly when the last call was `initialize` |
| RuntimeFallback.RunWorkflowAfterLifecycle | src/grid_core/runtime_fallback.py:50-73 | `run_workflow` answers instead of raising exactly when the last lifecycle call was `initialize` |
| RuntimeFallback.SelectBranch | src/grid_core/runtime_fallback.py:79-92 | a query whose lower-cased form contains "optimize" is routed to the optimise branch; otherwise one containing "show", "last" or "result" to the show branch; anything else gets the ready text |
| RuntimeFallback.SelectBranchIgnoresCase | src/grid_core/runtime_fallback.py:79-92 | routing treats a query and its lower-cased form alike |
| RuntimeFallback.OptimizeDominates | src/grid_core/runtime_fallback.py:79-92 | the optimise test comes first: text added around a query that mentions "optimize" never moves it to another branch |
| RuntimeFallback.ShowWithoutE | src/grid_core/runtime_fallback.py:79-92 | a lower-case query without the letter e that starts with "show" takes the show branch |
| RuntimeFallback.ShowLastOptimizationShows | src/grid_core/runtime_fallback.py:79-92 | "show last optimization" takes the show branch, since "optimization" does not contain "optimize" |
| RuntimeFallback.FirstContained | src/grid_core/runtime_fallback.py:123-125 | the answer is the first listed name, in list order, that occurs in the text, and nothing only when none does |
| RuntimeFallback.ExtractWith | src/grid_core/runtime_fallback.py:116-133 | a listed name occurring in the lower-cased query wins, first in list order; failing that, the lower-cased token after the first token "region" that has a successor; nothing exactly when neither exists; any answer is non-empty and lower-case |
| RuntimeFallback.ExtractRegion | src/grid_core/runtime_fallback.py:116-133 | `_extract_region` is the scan over the six listed names; any answer is non-empty and lower-case |
| RuntimeFallback.UsWestWinsAnywhere | src/grid_core/runtime_fallback.py:121-125 | list order beats position: "us-west" in any case is the answer even when another listed name comes first in the text |
| RuntimeFallback.RegionKeywordFollower | src/grid_core/runtime_fallback.py:127-131 | with no listed name present, "region X", the keyword in any case, gives x lower-cased |
| RuntimeFallback.RunWorkflow | src/grid_core/runtime_fallback.py:61-114 | raises "Runtime not initialized" exactly when not initialised; otherwise success is true, execution time is 1.0 and tokens are the query length plus the output length; only the optimise branch writes, through the engine on the extracted region, and answers the optimise text of the engine's reply; the show branch reads the latest result for the same extracted region and answers its show text; the ready branch answers the fixed text |
| RuntimeFallback.OptimizeText | src/grid_core/runtime_fallback.py:84-90 | only an error reply gives a text starting with "Error: ", and the error message reads back after it; a success names its region after "Grid optimization completed for region " |
| RuntimeFallback.ShowText | src/grid_core/runtime_fallback.py:97-104 | only a miss gives a text starting with "No optimization results found for region ", followed by the region or "default"; a found result names its region after "Last optimization for region " |
| RuntimeFallback.ShowMissText | src/grid_core/runtime_fallback.py:92-98 | asking for results when none is stored for the extracted region answers "No optimization results found for region " followed by that region, or "default" when the query names none |
| RuntimeFallback.OptimizeMissText | src/grid_core/runtime_fallback.py:79-85 | asking to optimise when no sample is stored for the extracted region answers "Error: " followed by the no-sample message and writes nothing |
| RuntimeFallback.ShowIsReadOnly | src/grid_core/runtime_fallback.py:92-104 | asking for "show last optimization" succeeds and leaves the database as it was |
| Deploy.Classify | deployment/deploy.py:76-118 | the lower-cased message is an optimisation request exactly when it contains "optimize" or "optimization"; otherwise a status request exactly when it contains "status", "last" or "recent"; otherwise help exactly when it contains "help"; anything else is other |
| Deploy.ClassifyIgnoresCase | deployment/deploy.py:76 | classification treats a message and its lower-cased form alike |
| Deploy.MentionsGrow | deployment/deploy.py:81-109 | a keyword a message contains is contained in any longer text around it |
| Deploy.ClassifyMonotone | deployment/deploy.py:81-124 | adding text to a message never moves it to a branch tested later |
| Deploy.OptimizationWordOptimizes | deployment/deploy.py:81 | any message containing "optimization", in any case, is an optimisation request |
| Deploy.ShowLastOptimizationOptimizes | deployment/deploy.py:81-95 | "Show last optimization" starts an optimisation, since "optimization" is tested before "last" |
| Deploy.Chat | deployment/deploy.py:71-124 | only an optimisation request writes, through the engine on the request's region; an engine error is a normal reply "I encountered an issue: ..." carrying the error dict, and a success answers the optimised text of the reply; a status request answers the found result's status text or, on a miss, the fixed no-results text; help answers the fixed text and the three commands; anything else the fixed suggestion |
| Deploy.OptimizedText | deployment/deploy.py:87-92 | a success reply names the optimised region after "I've optimized the grid for " and never starts like the engine-error reply |
| Deploy.StatusText | deployment/deploy.py:101-106 | a found-result reply names the result's region after "Last optimization for " and before " was on ", and is never the no-results text |
| Deploy.RegionComesFromRequestOnly | deployment/deploy.py:76-96 | two messages classified alike, sent with the same request region, have the same effect and answer: the region never comes from the message text |
| Deploy.WorkflowInvoke | deployment/deploy.py:150-172 | equals the chat handler on the input text with no region, plus the fixed workflow type and tool list |
| Deploy.WorkflowOptimizesGlobalLatest | deployment/deploy.py:157-161 | an "optimization" input optimises with no region filter, whatever region it names |
| Agents.Categorize | src/grid_core/agents.py:57-64 | an input is an optimisation request exactly when its lower-cased form contains "optimize" or "optimization"; otherwise a status query exactly when it contains "status", "results", "last" or "recent"; otherwise an operations query exactly when it contains "grid", "power", "supply" or "demand" |
| Agents.PreprocessInput | src/grid_core/agents.py:46-66 | the input, unaltered and in its original case, ends the result behind at most one of the three labels, and comes back unchanged exactly when no keyword occurs |
| Agents.LabelledTextIsCategorized | src/grid_core/agents.py:63-64 | a text starting with a label mentions "grid", so it always gets a label |
| Agents.UnlabelPreprocess | src/grid_core/agents.py:57-66 | reading the label back off a preprocessed input gives its category and the input itself |
| Agents.PreprocessStacksLabels | src/grid_core/agents.py:57-66 | preprocessing a labelled result again adds a second label |
| GridFunction.RegionOf | src/nat_toolkit/grid_function.py:27-34 | "us-west" unless the lower-cased input contains "region"; then the token after the first token containing "region" that is not the last token, or "us-west" if none; always non-empty and lower-case |
| GridFunction.RegionPartFollower | src/nat_toolkit/grid_function.py:30-34 | a first token containing "region", in any case, makes the second token the region, lower-cased |
| GridFunction.SubregionCounts | src/nat_toolkit/grid_function.py:32-33 | "subregion X" optimises region x: the keyword test is a substring test |
| GridFunction.TrailingKeywordKeepsDefault | src/nat_toolkit/grid_function.py:31-34 | when only the last token mentions "region", the default "us-west" stays |
| GridFunction.Efficiency | src/nat_toolkit/grid_function.py:41 | efficiency times supply is supply minus losses, times 100 |
| GridFunction.Format | src/nat_toolkit/grid_function.py:41-59 | the call fails exactly on an error reply or a zero supply, with the KeyError text naming `'optimized_supply'` or the division-by-zero text; a report copies the reply's region and figures, and its efficiency times the supply is the supply minus the losses, times 100 |
| GridFunction.Call | src/nat_toolkit/grid_function.py:23-59 | the engine runs on the extracted region; its error dict becomes the failure text naming the missing key `'optimized_supply'`; a zero supply becomes the division-by-zero failure text; otherwise the report carries the engine's region, losses and efficiency |
| GridFunction.MissingRegionFails | src/nat_toolkit/grid_function.py:27-59 | an input without "region" on a table with no "us-west" sample yields the failure text and writes nothing |
| GridFunction.NoSampleNoWrite | grid_optimization/core/operations.py:37-44 | with no stored sample of a non-empty region, optimising it answers the no-sample error and leaves the database unchanged |
| Catalog.DescribedRegion | grid_optimization/core/models.py:51-58 | a region entry built from name, display name and description has no capacity and status "active" |
| Catalog.RegionNames | grid_optimization/core/models.py:103 | `REGION_NAMES` is the `name` of each catalog entry, in catalog order |
| Catalog.RegionNamesInOrder | grid_optimization/core/models.py:94-103 | the names are us-west, us-east, us-central and pgae, in that order |
| Catalog.RegionNamesDistinct | grid_optimization/core/models.py:94-101 | no catalog name repeats |
| Catalog.CatalogDefaults | grid_optimization/core/models.py:94-101 | every entry is active, described and without capacity |
| Catalog.CatalogVersusAccess | grid_optimization/core/models.py:94-103 | the access gate admits every catalog region except pgae |
| Catalog.CatalogEntryAccess | grid_optimization/core/models.py:94-101 | the catalog name at each index is admitted by the access gate exactly when it is not pgae |
| Catalog.AllowListOnlyNames | grid_optimization/core/models.py:94-103 | the allow-list names the catalog lacks are exactly us-south, europe, asia, default and test-region |
| Seed.Sample | grid_optimization/core/initialization.py:32-41 | sample j of region i has demand d_i + 10j - 10, supply s_i + 15j - 15 and timestamp base + (6i + 2j) hours |
| Seed.SeedRows | grid_optimization/core/initialization.py:32-43 | twelve rows in loop order, row 3i + j holding sample j of region i |
| Seed.InitTestData | grid_optimization/core/initialization.py:11-46 | all earlier samples are deleted, the result table is untouched |
| Seed.TwelveSamples | grid_optimization/core/initialization.py:22-43 | seeding adds twelve rows, three for each of the four regions |
| Seed.RowRegion | grid_optimization/core/initialization.py:32-41 | row k belongs to region i exactly when it was added in the i-th pass of the outer loop |
| Seed.TimestampsIncrease | grid_optimization/core/initialization.py:35 | timestamps strictly increase in insertion order |
| Seed.SeedTimesDistinct | grid_optimization/core/initialization.py:35 | no two seeded rows share a timestamp |
| Seed.SeededRegionSolvesLastSample | grid_optimization/core/initialization.py:32-41 | optimising a seeded region after seeding solves that region's third sample |
| Seed.LastSampleIsLatest | grid_optimization/core/initialization.py:34-35 | the third sample of a region is a newest row for that region |
| Seed.SeededGlobalLatest | grid_optimization/core/initialization.py:35 | optimising with no region solves pgae's third sample, the newest, at hour 22 |
| Seed.SeedLatestIsUnique | grid_optimization/core/initialization.py:35 | on the seeded table the optimisation reply is the solution of the one admissible sample |
| Seed.SeededUsWest | grid_optimization/core/initialization.py:23-38 | optimising us-west works from demand 1010 and supply 1115 |
| Seed.SeededUnknownRegionFails | grid_optimization/core/initialization.py:22-27 | a non-empty region the seed does not use gets the no-sample error and nothing is written |
| Seed.SeededMixedCaseFails | grid_optimization/core/initialization.py:23 | "US-West" finds no seeded sample, since the filter is exact |
| Config.BaseOf | grid_optimization/utils/config.py:81-85 | the base is the top level without the three environment sections |
| Config.Overlay | grid_optimization/utils/config.py:89-97 | the result is a mapping exactly when the override is; a mapping override's inner keys take its values, and over a base mapping the base's other inner keys survive with theirs, no other keys appearing; any other override replaces the base value |
| Config.Merge | grid_optimization/utils/config.py:88-97 | the merged keys are the base's and the section's; section keys take the overlay, other keys keep their base value |
| Config.MergeEnvironment | grid_optimization/utils/config.py:77-103 | fails exactly when the chosen environment names a section that is not a mapping; without that section the data passes through; with it the merge is taken; "environment" is always present, defaulting to "development" |
| Config.MergeSemantics | grid_optimization/utils/config.py:79-99 | keys the section sets take the overlay, other base keys keep their value, environment sections are dropped |
| Config.OneLevelUpdateKeepsBaseKeys | grid_optimization/utils/config.py:89-95 | inner keys only the base mapping has survive the update |
| Config.MergeSettles | grid_optimization/utils/config.py:79-99 | merging the merged result again for the same known environment changes nothing |
| Config.NatToStringRoundTrip | grid_optimization/utils/config.py:123 | the decimal digits of the port read back as the port |
| Config.NatToString | grid_optimization/utils/config.py:123 | `str` of a port number is a non-empty run of decimal digits |
| Config.IntToString | grid_optimization/utils/config.py:123 | `str` of an integer starts with `-` exactly for a negative number, and the decimal digits after any sign read back as the number's magnitude, so the port in the PostgreSQL URL is the configured port |
| Config.GetDatabaseUrl | grid_optimization/utils/config.py:108-125 | succeeds exactly for sqlite and postgresql; sqlite gives "sqlite:///" + path; postgresql gives host, port and name with unset fields as "None"; any other type gives "Unsupported database type: " + type |
| Config.DefaultDatabaseUrl | grid_optimization/utils/config.py:120-121 | the default database is "sqlite:///gridopt.db" |
| Config.SqliteUrlKeepsPath | grid_optimization/utils/config.py:120-121 | the path can be read back from a SQLite URL |
| Config.GetConfig | grid_optimization/utils/config.py:128-137 | a filled cell is answered as is and no load happens; an empty cell is loaded: a successful load fills the cell with the answer, a raising load leaves the cell empty and its exception propagates |
| Config.GetConfigLoadsOnce | grid_optimization/utils/config.py:128-137 | from an empty cell, every call before the first successful load raises that call's own load error, and that call and every later one answer what the first successful load produced |
| Config.GetConfigKeepsCell | grid_optimization/utils/config.py:135-137 | once the cell is filled, every later call answers its value, whatever a load would produce |
| Config.GetConfigAlwaysFailing | grid_optimization/utils/config.py:135-136 | when every load raises, every call raises with its own load's exception |

## Left out

- SciPy's `minimize` is an uninterpreted function, and floating point is
  modelled as exact reals. Convergence, rounding and the `:.2f`, `:.4f`,
  `:.8f` and `isoformat` renderings are not modelled; they are the
  parameters of `Common.Render`.
- SQLAlchemy engines, sessions, commits and `create_tables` are not
  modelled. The two tables are sequences; row ids and the `datetime.now`
  default become the `now` parameter.
- The HTTP adapters are not modelled: the `root`, `health_check`,
  `optimize_endpoint` and `status_endpoint` routes of deployment/deploy.py,
  CORS, server start-up, and the `HTTPException` wrapping of unexpected
  exceptions. The last two routes only forward to the engine tools, which
  are modelled.
- `run_in_executor` and the async dispatch are not modelled: they carry no
  state beyond the engine call.
- The emoji report text of `GridOptimizationFunction.__call__`,
  including `region.upper()`, is not modelled; `GridFunction.Report` keeps
  its figures.
- grid_core.operations, which src/nat_toolkit/grid_function.py imports, is
  not part of this model. `GridFunction.Call` takes it to be the engine of
  grid_optimization/core/operations.py.
- `get_secret` and `secure_connection` of security.py are not modelled:
  they read the environment.
- YAML parsing, reading `GRID_OPTIMIZATION_ENV`, the `AppConfig` pydantic
  validation and `Config.from_file` of runtime_fallback.py are not
  modelled. They are I/O or library validation; their results are the
  `data` and `env` parameters and the `load` outcomes of
  `Config.GetConfig`, a configuration or the exception it raised.
- RuntimeFallback.QueryOf: the workflow input is a map from names to
  strings, so a "query" value that is present but not a string, such as
  `None` or a number, cannot be expressed; the source raises on its
  `query.lower()`, and that error path is not modelled.
- Deploy.InputOf: the workflow request is a map from names to strings,
  so a present "input" that is not a string, such as `None`, cannot be
  expressed; the source's `ChatRequest(message=...)` then fails validation
  and the route answers HTTP 500, and that error path is not modelled.
- The `workflow_name` argument of `run_workflow` is not modelled: the code
  never reads it. The agent list and tool map of `AIQRuntime` are not
  modelled either.
- Logging is not modelled.
- Non-ASCII text is not modelled: Python's Unicode `lower()`, `isalnum()`,
  `isspace()` and `split()` agree with the model on ASCII only.
- `RecursionError` on deeply nested input to `validate_input` (caught and
  answered `False`) is not modelled.
- Security.ValidateInput: dict entries are a sequence of key/value pairs
  in iteration order, so duplicate keys are not excluded. Non-string keys
  are checked like any value.
- GridFunction.RegionOf: the contract for an input that contains "region"
  is stated through the token scan `Text.FollowerOfFirst`, whose own
  contract gives the first-keyword-with-successor property.
- Seed.InitTestData: the clock reading `now - 2 days` is the `base`
  parameter, in seconds.
- Which of several rows sharing the greatest timestamp a query returns is
  left open by the `order_by(timestamp.desc())` queries; the engine's
  contracts promise only a row of greatest timestamp.

=== FILE: agents.dfy ===
/**
 * `GridOptimizationAgent.preprocess_input` of src/grid_core/agents.py: a
 * keyword test on the lower-cased input that prepends at most one
 * category label and never alters the input itself.
 */
module Agents {
  import opened Text

  /** The category the keyword tests assign, in the order they are tried. */
  datatype Category = OptimizationRequest | StatusQuery | OperationsQuery | Unlabelled

  predicate AnyIn(text: string, keywords: seq<string>)
  {
    exists k :: 0 <= k < |keywords| && Contains(text, keywords[k])
  }

  const OptimizationWords: seq<string> := ["optimize", "optimization"]
  const StatusWords: seq<string> := ["status", "results", "last", "recent"]
  const OperationsWords: seq<string> := ["grid", "power", "supply", "demand"]

  /**
   * The keyword tests on the lower-cased input, first match wins: each
   * category is chosen exactly when one of its keywords occurs and no
   * keyword of an earlier category does.
   */
  function Categorize(input: string): (c: Category)
    ensures c == OptimizationRequest <==> AnyIn(LowerStr(input), OptimizationWords)
    ensures c == StatusQuery <==> !AnyIn(LowerStr(input), OptimizationWords) && AnyIn(LowerStr(input), StatusWords)
    ensures c == OperationsQuery <==>
              && !AnyIn(LowerStr(input), OptimizationWords)
              && !AnyIn(LowerStr(input), StatusWords)
              && AnyIn(LowerStr(input), OperationsWords)
  {
    var l := LowerStr(input);
    if AnyIn(l, OptimizationWords) then OptimizationRequest
    else if AnyIn(l, StatusWords) then StatusQuery
    else if AnyIn(l, OperationsWords) then OperationsQuery
    else Unlabelled
  }

  const OptimizationPrefix := "Grid Optimization Request: "
  const StatusPrefix := "Grid Status Query: "
  const OperationsPrefix := "Grid Operations Query: "

  /** The label a category adds; an unlabelled input gets none. */
  function Label(c: Category): string
  {
    match c
    case OptimizationRequest => OptimizationPrefix
    case StatusQuery => StatusPrefix
    case OperationsQuery => OperationsPrefix
    case Unlabelled => ""
  }

  /**
   * `preprocess_input(user_input)`: the input, in its original case,
   * behind at most one label; it is returned unchanged exactly when no
   * keyword occurs in it.
   */
  function PreprocessInput(input: string): (r: string)
    ensures |r| >= |input| && r[|r| - |input|..] == input
    ensures r == input || r == OptimizationPrefix + input || r == StatusPrefix + input || r == OperationsPrefix + input
    ensures r == input <==> Categorize(input) == Unlabelled
  {
    Label(Categorize(input)) + input
  }

  /** Reads the label back off a preprocessed text. */
  function Unlabel(text: string): (Category, string)
  {
    if StartsWith(text, OptimizationPrefix) then (OptimizationRequest, text[|OptimizationPrefix|..])
    else if StartsWith(text, StatusPrefix) then (StatusQuery, text[|StatusPrefix|..])
    else if StartsWith(text, OperationsPrefix) then (OperationsQuery, text[|OperationsPrefix|..])
    else (Unlabelled, text)
  }

  /** A text that starts with a label mentions "grid", so it is never left unlabelled. */
  lemma LabelledTextIsCategorized(c: Category, text: string)
    requires c != Unlabelled && StartsWith(text, Label(c))
    ensures Categorize(text) != Unlabelled
  {
    assert text[..4] == "Grid" by {
      assert text[..|Label(c)|] == Label(c);
      assert Label(c)[..4] == "Grid";
    }
    GridPrefixIsCategorized(text);
  }

  /** A text that starts with "Grid" mentions "grid" once lower-cased. */
  lemma GridPrefixIsCategorized(text: string)
    requires |text| >= 4 && text[..4] == "Grid"
    ensures Categorize(text) != Unlabelled
  {
    var l := LowerStr(text);
    assert l[..4] == "grid" by {
      assert text[0] == 'G' && text[1] == 'r' && text[2] == 'i' && text[3] == 'd';
    }
    assert StartsWith(l, OperationsWords[0]);
    assert AnyIn(l, OperationsWords);
  }

  /**
   * Preprocessing loses nothing: the label read back is the category the
   * input was given and the remainder is the input itself.
   */
  lemma UnlabelPreprocess(input: string)
    ensures Unlabel(PreprocessInput(input)) == (Categorize(input), input)
  {
    var c := Categorize(input);
    if c == Unlabelled {
      if StartsWith(input, OptimizationPrefix) {
        LabelledTextIsCategorized(OptimizationRequest, input);
      } else if StartsWith(input, StatusPrefix) {
        LabelledTextIsCategorized(StatusQuery, input);
      } else if StartsWith(input, OperationsPrefix) {
        LabelledTextIsCategorized(OperationsQuery, input);
      }
    } else {
      var r := Label(c) + input;
      assert r[|Label(c)|..] == input;
      assert r[..|Label(c)|] == Label(c);
      if c == StatusQuery {
        assert r[5] != OptimizationPrefix[5];
      } else if c == OperationsQuery {
        assert r[7] != OptimizationPrefix[7] && r[5] != StatusPrefix[5];
      }
    }
  }

  /**
   * Preprocessing is not idempotent: a labelled text mentions "grid", so
   * preprocessing it again stacks a second label.
   */
  lemma PreprocessStacksLabels(input: string)
    requires PreprocessInput(input) != input
    ensures |PreprocessInput(PreprocessInput(input))| > |PreprocessInput(input)|
  {
    var c := Categorize(input);
    var r := PreprocessInput(input);
    assert r[..|Label(c)|] == Label(c);
    LabelledTextIsCategorized(c, r);
  }
}

=== FILE: catalog.dfy ===
/**
 * The region catalog of grid_optimization/core/models.py: `RegionInfo`
 * records with their defaults, the fixed ordered `AVAILABLE_REGIONS`, and
 * `REGION_NAMES` derived from it. The catalog is kept independently of the
 * access allow-list of the security module, and the two disagree.
 */
module Catalog {
  import opened Common
  import opened Text
  import Security

  /** `RegionInfo`: description and capacity are optional, status defaults to "active". */
  datatype RegionInfo = RegionInfo(
    name: string,
    displayName: string,
    description: Option<string>,
    capacity: Option<real>,
    status: string)

  /** A `RegionInfo` built from the three fields the catalog gives, the rest at their defaults. */
  function DescribedRegion(name: string, displayName: string, description: string): (r: RegionInfo)
    ensures r.name == name && r.displayName == displayName && r.description == Some(description)
    ensures r.capacity.None? && r.status == "active"
  {
    RegionInfo(name, displayName, Some(description), None, "active")
  }

  /** `AVAILABLE_REGIONS`, in declaration order. */
  const AvailableRegions: seq<RegionInfo> := [
    DescribedRegion("us-west", "US West", "Western United States grid"),
    DescribedRegion("us-east", "US East", "Eastern United States grid"),
    DescribedRegion("us-central", "US Central", "Central United States grid"),
    DescribedRegion("pgae", "PG&E", "Pacific Gas & Electric grid")
  ]

  /** `REGION_NAMES`: the `name` of every catalog entry, in catalog order. */
  function RegionNames(): (names: seq<string>)
    ensures |names| == |AvailableRegions|
    ensures forall i :: 0 <= i < |names| ==> names[i] == AvailableRegions[i].name
  {
    seq(|AvailableRegions|, i requires 0 <= i < |AvailableRegions| => AvailableRegions[i].name)
  }

  /** The catalog lists us-west, us-east, us-central and pgae, in that order. */
  lemma RegionNamesInOrder()
    ensures RegionNames() == ["us-west", "us-east", "us-central", "pgae"]
  {
  }

  /** No name appears twice in the catalog. */
  lemma RegionNamesDistinct()
    ensures forall i, j :: 0 <= i < j < |RegionNames()| ==> RegionNames()[i] != RegionNames()[j]
  {
    RegionNamesInOrder();
  }

  /** Every catalog entry is active and has a description but no capacity. */
  lemma CatalogDefaults()
    ensures forall r :: r in AvailableRegions ==> r.status == "active" && r.description.Some? && r.capacity.None?
  {
  }

  /**
   * The access gate admits every catalog region except pgae: the catalog
   * offers a region that access control then refuses.
   */
  lemma CatalogVersusAccess()
    ensures forall i :: 0 <= i < |RegionNames()| ==>
              (Security.ValidateRegionAccess(Some(RegionNames()[i])) <==> RegionNames()[i] != "pgae")
  {
    forall i | 0 <= i < |RegionNames()|
      ensures Security.ValidateRegionAccess(Some(RegionNames()[i])) <==> RegionNames()[i] != "pgae"
    {
      CatalogEntryAccess(i);
    }
  }

  /** The access answer for the catalog name at one index, settled name by name. */
  lemma CatalogEntryAccess(i: nat)
    requires i < |AvailableRegions|
    ensures Security.ValidateRegionAccess(Some(RegionNames()[i])) <==> RegionNames()[i] != "pgae"
  {
    var name := RegionNames()[i];
    assert name == AvailableRegions[i].name;
    if i == 0 {
      assert name == "us-west";
      Security.AcceptsUsWest();
    } else if i == 1 {
      assert name == "us-east";
      AcceptsUsEast();
    } else if i == 2 {
      assert name == "us-central";
      AcceptsUsCentral();
    } else {
      assert name == "pgae";
      Security.RejectsPgae();
    }
  }

  lemma AcceptsUsEast()
    ensures Security.ValidateRegionAccess(Some("us-east"))
  {
    Security.Unchanged("us-east");
  }

  lemma AcceptsUsCentral()
    ensures Security.ValidateRegionAccess(Some("us-central"))
  {
    Security.Unchanged("us-central");
  }

  /** The allow-list names that the catalog does not offer. */
  lemma AllowListOnlyNames()
    ensures Security.ValidRegions - (set n | n in RegionNames()) == {"us-south", "europe", "asia", "default", "test-region"}
  {
    RegionNamesInOrder();
  }
}

=== FILE: common.dfy ===
/** Failure-carrying wrappers and the rendering hooks shared by every front-end. */
module Common {

  /** Python's `None`-or-value. */
  datatype Option<+T> = None | Some(value: T)
  {
    /** The value, or `default` when absent (Python's `x or default` on a non-empty value). */
    function GetOr(default: T): T
    {
      match this
      case Some(v) => v
      case None => default
    }
  }

  /** A value or the exception the source raises instead. */
  datatype Result<+R, +E> = Success(value: R) | Failure(error: E)

  /**
   * Float formatting is not modelled; the front-ends receive these
   * renderers as inputs: `fixed2` and `fixed4` stand for the `:.2f` and
   * `:.4f` format specifications, `iso` for `datetime.isoformat()`.
   */
  datatype Render = Render(fixed2: real -> string, fixed4: real -> string, iso: int -> string)

  /** The squared imbalance used as the loss metric. */
  function Square(x: real): (r: real)
    ensures r >= 0.0
  {
    x * x
  }
}

=== FILE: config.dfy ===
/**
 * The configuration logic of grid_optimization/utils/config.py: the
 * environment-section merge of `load_config`, `get_database_url`, and the
 * load-once `get_config`. Reading the YAML file and the
 * `GRID_OPTIMIZATION_ENV` variable happens outside: their results are the
 * parameters `data` and `env`.
 */
module Config {
  import opened Common
  import opened Text

  /** A parsed YAML value: a mapping, or anything else (scalar, list, null), kept as its text. */
  datatype Yaml = YMap(entries: map<string, Yaml>) | YOther(text: string)

  /** The top-level keys that hold per-environment overrides. */
  const EnvironmentSections: set<string> := {"development", "staging", "production"}

  const DefaultEnvironment := "development"

  /** The top level without the environment sections. */
  function BaseOf(data: map<string, Yaml>): (base: map<string, Yaml>)
    ensures base.Keys == data.Keys - EnvironmentSections
    ensures forall k :: k in base ==> base[k] == data[k]
  {
    map k | k in data && k !in EnvironmentSections :: data[k]
  }

  /**
   * The value of `key` after the override `value` is applied: a mapping
   * over a mapping is updated one level deep, so the override's inner keys
   * win and the base's other inner keys survive; anything else replaces.
   */
  function Overlay(base: map<string, Yaml>, key: string, value: Yaml): (v: Yaml)
    ensures v.YMap? <==> value.YMap?
    ensures !value.YMap? ==> v == value
    ensures value.YMap? ==>
              v.entries.Keys == value.entries.Keys + (if key in base && base[key].YMap? then base[key].entries.Keys else {})
    ensures value.YMap? ==> forall k :: k in value.entries ==> v.entries[k] == value.entries[k]
    ensures value.YMap? && key in base && base[key].YMap? ==>
              forall k :: k in base[key].entries && k !in value.entries ==> v.entries[k] == base[key].entries[k]
  {
    if key in base && base[key].YMap? && value.YMap? then YMap(base[key].entries + value.entries) else value
  }

  /** The base with every key of the override section applied. */
  function Merge(base: map<string, Yaml>, overrides: map<string, Yaml>): (m: map<string, Yaml>)
    ensures m.Keys == base.Keys + overrides.Keys
    ensures forall k :: k in overrides ==> m[k] == Overlay(base, k, overrides[k])
    ensures forall k :: k in base && k !in overrides ==> m[k] == base[k]
  {
    map k | k in base.Keys + overrides.Keys :: if k in overrides then Overlay(base, k, overrides[k]) else base[k]
  }

  /**
   * Python names the section's own type in this message (`'str' object has
   * no attribute 'items'`, and so on); the model keeps one text, since only
   * the failure itself is relied on.
   */
  const AttributeError := "AttributeError: object has no attribute 'items'"

  /**
   * The dict `load_config` validates, from the parsed file and the chosen
   * environment. When the environment names a top-level key, that section
   * is merged over the top level without the environment sections; a
   * section that is not a mapping makes `.items()` raise. Finally
   * `environment` defaults to "development".
   */
  function MergeEnvironment(data: map<string, Yaml>, env: string): (r: Result<map<string, Yaml>, string>)
    ensures r.Failure? <==> env in data && !data[env].YMap?
    ensures r.Success? ==> "environment" in r.value
    ensures r.Success? && env !in data ==>
              r.value == if "environment" in data then data else data["environment" := YOther(DefaultEnvironment)]
    ensures r.Success? && env in data ==>
              var merged := Merge(BaseOf(data), data[env].entries);
              r.value == if "environment" in merged then merged else merged["environment" := YOther(DefaultEnvironment)]
  {
    var merged :=
      if env !in data then Success(data)
      else match data[env]
        case YMap(overrides) => Success(Merge(BaseOf(data), overrides))
        case YOther(_) => Failure(AttributeError);
    match merged
    case Failure(e) => Failure(e)
    case Success(m) => Success(if "environment" in m then m else m["environment" := YOther(DefaultEnvironment)])
  }

  /**
   * For an environment that has a section: keys the section sets take its
   * value (mappings updated one level, so inner keys only the base has
   * survive), other top-level keys keep theirs, and the other environment
   * sections are gone.
   */
  lemma MergeSemantics(data: map<string, Yaml>, env: string, key: string)
    requires env in data && data[env].YMap? && key != "environment"
    ensures var r := MergeEnvironment(data, env);
            var overrides := data[env].entries;
            && r.Success?
            && (key in overrides ==> key in r.value && r.value[key] == Overlay(BaseOf(data), key, overrides[key]))
            && (key !in overrides && key in data && key !in EnvironmentSections ==> key in r.value && r.value[key] == data[key])
            && (key !in overrides && key in EnvironmentSections ==> key !in r.value)
  {
  }

  /** Inner keys the base mapping has and the override lacks survive the update. */
  lemma OneLevelUpdateKeepsBaseKeys(data: map<string, Yaml>, env: string, key: string, inner: string)
    requires env in data && data[env].YMap? && key != "environment" && key !in EnvironmentSections
    requires key in data && data[key].YMap? && inner in data[key].entries
    requires key in data[env].entries && data[env].entries[key].YMap? && inner !in data[env].entries[key].entries
    ensures var r := MergeEnvironment(data, env);
            r.Success? && key in r.value && r.value[key].YMap?
            && inner in r.value[key].entries && r.value[key].entries[inner] == data[key].entries[inner]
  {
    MergeSemantics(data, env, key);
  }

  /**
   * Merging is settled after one pass for the three known environments:
   * the section is dropped by the merge, so merging the result again
   * changes nothing.
   */
  lemma MergeSettles(data: map<string, Yaml>, env: string)
    requires env in EnvironmentSections
    requires MergeEnvironment(data, env).Success?
    ensures var once := MergeEnvironment(data, env).value;
            env in data && env !in data[env].entries ==> MergeEnvironment(once, env) == Success(once)
  {
  }

  /** `DatabaseConfig` with its defaults available through `DefaultDatabase`. */
  datatype DatabaseConfig = DatabaseConfig(
    kind: string,
    path: string,
    echo: bool,
    host: Option<string>,
    port: Option<int>,
    name: Option<string>)

  const DefaultDatabase := DatabaseConfig("sqlite", "gridopt.db", false, None, None, None)

  /** The decimal digits of a natural number. */
  function NatToString(n: nat): (s: string)
    ensures |s| > 0 && forall i :: 0 <= i < |s| ==> IsDigit(s[i])
    decreases n
  {
    var d := ['0' + (n % 10) as char];
    if n < 10 then d else NatToString(n / 10) + d
  }

  /** The value of a string of decimal digits. */
  function DigitsValue(s: string): nat
    requires forall i :: 0 <= i < |s| ==> IsDigit(s[i])
  {
    if |s| == 0 then 0
    else
      var digit := s[|s| - 1] as int - '0' as int;
      assert IsDigit(s[|s| - 1]) && digit >= 0;
      10 * DigitsValue(s[..|s| - 1]) + digit
  }

  /** The digits read back as the number they were written from. */
  lemma {:induction false} NatToStringRoundTrip(n: nat)
    ensures DigitsValue(NatToString(n)) == n
    decreases n
  {
    var s := NatToString(n);
    if n >= 10 {
      NatToStringRoundTrip(n / 10);
      assert s[..|s| - 1] == NatToString(n / 10);
    }
  }

  /** `str(n)` for an integer: a minus sign for a negative number, then its digits. */
  function IntToString(n: int): (s: string)
    ensures |s| > 0 && (s[0] == '-' <==> n < 0)
    ensures n >= 0 ==> (forall i :: 0 <= i < |s| ==> IsDigit(s[i])) && DigitsValue(s) == n
    ensures n < 0 ==> (forall i :: 0 <= i < |s| - 1 ==> IsDigit(s[1..][i])) && DigitsValue(s[1..]) == -n
  {
    if n >= 0 then
      NatToStringRoundTrip(n);
      NatToString(n)
    else
      NatToStringRoundTrip(-n);
      var digits := NatToString(-n);
      assert ("-" + digits)[1..] == digits;
      "-" + digits
  }

  /** An f-string field holding an optional value: the value, or "None". */
  function ShowOptional(v: Option<string>): string
  {
    v.GetOr("None")
  }

  function ShowOptionalInt(v: Option<int>): string
  {
    if v.None? then "None" else IntToString(v.value)
  }

  const UnsupportedPrefix := "Unsupported database type: "

  /**
   * `get_database_url(config)`: a SQLite file URL, a PostgreSQL URL with
   * unset fields rendered "None", or the unsupported-type error.
   */
  function GetDatabaseUrl(db: DatabaseConfig): (r: Result<string, string>)
    ensures r.Success? <==> db.kind == "sqlite" || db.kind == "postgresql"
    ensures db.kind == "sqlite" ==> r == Success("sqlite:///" + db.path)
    ensures db.kind == "postgresql" ==>
              r == Success("postgresql://" + ShowOptional(db.host) + ":" + ShowOptionalInt(db.port) + "/" + ShowOptional(db.name))
    ensures r.Failure? ==> r.error == UnsupportedPrefix + db.kind
  {
    if db.kind == "sqlite" then Success("sqlite:///" + db.path)
    else if db.kind == "postgresql" then
      Success("postgresql://" + ShowOptional(db.host) + ":" + ShowOptionalInt(db.port) + "/" + ShowOptional(db.name))
    else Failure(UnsupportedPrefix + db.kind)
  }

  /** Out of the box the database is the SQLite file gridopt.db. */
  lemma DefaultDatabaseUrl()
    ensures GetDatabaseUrl(DefaultDatabase) == Success("sqlite:///gridopt.db")
  {
    var url := "sqlite:///" + "gridopt.db";
    assert |url| == 20;
    assert forall i :: 0 <= i < 20 ==> url[i] == "sqlite:///gridopt.db"[i];
    assert url == "sqlite:///gridopt.db";
    assert GetDatabaseUrl(DefaultDatabase) == Success(url);
  }

  /** The SQLite URL gives back the path it was built from. */
  lemma SqliteUrlKeepsPath(db: DatabaseConfig)
    requires db.kind == "sqlite"
    ensures var url := GetDatabaseUrl(db).value;
            |url| >= 10 && url[10..] == db.path
  {
    assert ("sqlite:///" + db.path)[10..] == db.path;
  }

  /**
   * `get_config()` over the module-level `_config` cell. `load` stands
   * for what `load_config()` would do if it were called now: return a
   * configuration or raise. A raising load leaves the cell empty and the
   * exception propagates; a successful one fills the cell.
   */
  function GetConfig<T>(cell: Option<T>, load: Result<T, string>): (r: (Option<T>, Result<T, string>))
    ensures r.1.Success? <==> cell.Some? || load.Success?
    ensures r.1.Success? ==> r.0 == Some(r.1.value)
    ensures r.1.Failure? ==> r.0.None? && r.1 == load
    ensures cell.Some? ==> r.1 == Success(cell.value)
  {
    match cell
    case Some(v) => (cell, Success(v))
    case None =>
      match load
      case Success(v) => (Some(v), Success(v))
      case Failure(e) => (None, Failure(e))
  }

  /** The answers to a sequence of `get_config()` calls, each offered its own fresh load. */
  function GetConfigCalls<T>(cell: Option<T>, loads: seq<Result<T, string>>): seq<Result<T, string>>
    decreases |loads|
  {
    if |loads| == 0 then []
    else
      var (cell', answer) := GetConfig(cell, loads[0]);
      [answer] + GetConfigCalls(cell', loads[1..])
  }

  /** Once the cell is filled, every call answers its value and no load is looked at. */
  lemma {:induction false} GetConfigKeepsCell<T>(v: T, loads: seq<Result<T, string>>)
    ensures var answers := GetConfigCalls(Some(v), loads);
            |answers| == |loads| && forall i :: 0 <= i < |answers| ==> answers[i] == Success(v)
    decreases |loads|
  {
    if |loads| > 0 {
      GetConfigKeepsCell(v, loads[1..]);
    }
  }

  /**
   * Loaded once, retried until then: from an empty cell, every call up to
   * the first successful load `k` loads again (so each earlier call raises
   * its own load's exception), and call `k` and every later call answer what
   * load `k` produced, whatever later loads would have produced.
   */
  lemma {:induction false} GetConfigLoadsOnce<T>(loads: seq<Result<T, string>>, k: nat)
    requires k < |loads| && loads[k].Success?
    requires forall i :: 0 <= i < k ==> loads[i].Failure?
    ensures var answers := GetConfigCalls(None, loads);
            && |answers| == |loads|
            && (forall i :: 0 <= i < k ==> answers[i] == loads[i])
            && (forall i :: k <= i < |answers| ==> answers[i] == Success(loads[k].value))
    decreases k
  {
    var answers := GetConfigCalls(None, loads);
    var tail := loads[1..];
    if k == 0 {
      GetConfigKeepsCell(loads[0].value, tail);
      assert answers == [Success(loads[0].value)] + GetConfigCalls(Some(loads[0].value), tail);
    } else {
      assert loads[0].Failure?;
      assert answers == [loads[0]] + GetConfigCalls(None, tail);
      assert forall i :: 0 <= i < |tail| ==> tail[i] == loads[i + 1];
      GetConfigLoadsOnce(tail, k - 1);
    }
  }

  /** When every load raises, every call raises, each with its own load's exception, and the cell stays empty. */
  lemma {:induction false} GetConfigAlwaysFailing<T>(loads: seq<Result<T, string>>)
    requires forall i :: 0 <= i < |loads| ==> loads[i].Failure?
    ensures GetConfigCalls(None, loads) == loads
    decreases |loads|
  {
    if |loads| > 0 {
      assert GetConfigCalls(None, loads) == [loads[0]] + GetConfigCalls(None, loads[1..]);
      GetConfigAlwaysFailing(loads[1..]);
      assert loads == [loads[0]] + loads[1..];
    }
  }
}

=== FILE: deploy.dfy ===
/**
 * The chat front-end of deployment/deploy.py: `chat_endpoint` classifies a
 * message by keyword and calls one grid tool with the region the request
 * carries; `workflow_invoke` forwards a bare input string to it.
 */
module Deploy {
  import opened Common
  import opened Text
  import opened Store
  import Engine

  /** The four answers `chat_endpoint` can give, in the order it tests for them. */
  datatype Intent = OptimizeIntent | StatusIntent | HelpIntent | OtherIntent

  /** Position in the test order: a higher rank is tested earlier. */
  function Rank(i: Intent): nat
  {
    match i
    case OptimizeIntent => 3
    case StatusIntent => 2
    case HelpIntent => 1
    case OtherIntent => 0
  }

  predicate MentionsOptimize(m: string)
  {
    Contains(m, "optimize") || Contains(m, "optimization")
  }

  predicate MentionsStatus(m: string)
  {
    Contains(m, "status") || Contains(m, "last") || Contains(m, "recent")
  }

  predicate MentionsHelp(m: string)
  {
    Contains(m, "help")
  }

  /**
   * Keyword classification of the lower-cased message, first test wins:
   * each intent is chosen exactly when its keywords occur and those of
   * every earlier test do not.
   */
  function Classify(message: string): (i: Intent)
    ensures i == OptimizeIntent <==> MentionsOptimize(LowerStr(message))
    ensures i == StatusIntent <==> !MentionsOptimize(LowerStr(message)) && MentionsStatus(LowerStr(message))
    ensures i == HelpIntent <==>
              !MentionsOptimize(LowerStr(message)) && !MentionsStatus(LowerStr(message)) && MentionsHelp(LowerStr(message))
  {
    var m := LowerStr(message);
    if MentionsOptimize(m) then OptimizeIntent
    else if MentionsStatus(m) then StatusIntent
    else if MentionsHelp(m) then HelpIntent
    else OtherIntent
  }

  /** Classification ignores case. */
  lemma ClassifyIgnoresCase(message: string)
    ensures Classify(LowerStr(message)) == Classify(message)
  {
    LowerOfLower(LowerStr(message));
  }

  /** A keyword present in `m` is present in any text containing `m`. */
  lemma MentionsGrow(pre: string, m: string, post: string)
    ensures MentionsOptimize(m) ==> MentionsOptimize(pre + m + post)
    ensures MentionsStatus(m) ==> MentionsStatus(pre + m + post)
    ensures MentionsHelp(m) ==> MentionsHelp(pre + m + post)
  {
    forall p | Contains(m, p)
      ensures Contains(pre + m + post, p)
    {
      ContainsAppend(m, post, p);
      ContainsAppend(m + post, pre, p);
      assert pre + (m + post) == pre + m + post;
    }
  }

  /**
   * Adding words to a message never lowers its priority: whatever a
   * message is classified as, a message containing it is classified the
   * same or as something tested earlier.
   */
  lemma ClassifyMonotone(pre: string, message: string, post: string)
    ensures Rank(Classify(pre + message + post)) >= Rank(Classify(message))
  {
    LowerAppend(pre, message);
    LowerAppend(pre + message, post);
    MentionsGrow(LowerStr(pre), LowerStr(message), LowerStr(post));
  }

  /** Any message containing "optimization", in any case, asks for an optimisation run. */
  lemma OptimizationWordOptimizes(pre: string, post: string)
    ensures Classify(pre + "optimization" + post) == OptimizeIntent
  {
    ContainsMiddle("", "optimization", "");
    assert "" + "optimization" + "" == "optimization";
    LowerOfLower("optimization");
    assert Classify("optimization") == OptimizeIntent;
    ClassifyMonotone(pre, "optimization", post);
  }

  /**
   * "Show last optimization", which the help text itself offers as the way
   * to view results, starts a new optimisation run: "optimization" is
   * tested before "last".
   */
  lemma ShowLastOptimizationOptimizes()
    ensures Classify("Show last optimization") == OptimizeIntent
  {
    OptimizationWordOptimizes("Show last ", "");
    assert "Show last " + "optimization" + "" == "Show last optimization";
  }

  /** A chat request: the message and the optional region, which is the only region the tools ever see. */
  datatype ChatRequest = ChatRequest(message: string, region: Option<string>)

  /** The `data` dict of a chat response. */
  datatype ChatData =
    | OptimizeData(result: Engine.OptimizeReply)
    | StatusData(latest: Engine.LatestReply)
    | Commands(commands: seq<string>)
    | Suggestion(suggestion: string)

  /** A chat response; every branch fills `data`. */
  datatype ChatResponse = ChatResponse(response: string, data: ChatData)

  const IssuePrefix := "I encountered an issue: "
  const NoResultsText := "No " + "optimization results found for the specified region."

  /** The bullet of the help text: the UTF-8 bytes of U+2022 read as Windows-1252, as the source file has them. */
  const Bullet := "\U{E2}\U{20AC}\U{A2}"

  const HelpText := "I can help you with grid optimization! Try asking me to:\n"
    + Bullet + " 'Optimize the grid' - Run optimization for a region\n"
    + Bullet + " 'Show last optimization' - View recent results\n"
    + Bullet + " 'Optimize region us-west' - Optimize specific region"

  const HelpCommands: seq<string> := ["optimize", "status", "help"]

  const FallbackText := "I'm a grid optimization assistant. I can help optimize grid supply "
    + "and demand to minimize losses. Ask me to 'optimize the grid' or "
    + "'show last optimization'."

  const FallbackSuggestion := "Try saying 'optimize the grid' or 'help'"

  const OptimizedPrefix := "I've optimized the grid for "
  const StatusPrefix := "Last optimization for "

  /**
   * The reply to a successful optimisation: it names the optimised region
   * after the fixed opening, and never reads as the engine-error reply.
   */
  function OptimizedText(reply: Engine.OptimizeReply, render: Render): (t: string)
    requires reply.Optimized?
    ensures StartsWith(t, OptimizedPrefix + reply.region + ". ")
    ensures !StartsWith(t, IssuePrefix)
  {
    var t := OptimizedPrefix + reply.region + ". "
      + "Optimized supply: " + render.fixed2(reply.optimizedSupply) + ", "
      + "Demand: " + render.fixed2(reply.optimizedDemand) + ", "
      + "Losses: " + render.fixed4(reply.losses);
    assert (OptimizedPrefix + reply.region + ". ") <= t;
    assert t[1] == '\'' && IssuePrefix[1] == ' ';
    t
  }

  /**
   * The reply to a found result: it names the result's region after the
   * fixed opening, and is never the no-results text.
   */
  function StatusText(reply: Engine.LatestReply, render: Render): (t: string)
    requires reply.LatestFound?
    ensures StartsWith(t, StatusPrefix + reply.region + " was on ")
    ensures t != NoResultsText
  {
    var t := StatusPrefix + reply.region + " was on " + render.iso(reply.timestamp) + ". "
      + "Supply: " + render.fixed2(reply.optimizedSupply) + ", "
      + "Demand: " + render.fixed2(reply.optimizedDemand) + ", "
      + "Losses: " + render.fixed4(reply.losses);
    assert (StatusPrefix + reply.region + " was on ") <= t;
    assert t[0] == StatusPrefix[0] == 'L';
    assert NoResultsText[0] == "No "[0] == 'N';
    t
  }

  /**
   * `chat_endpoint(request)`: the database after the call and the
   * response. Only an optimisation request writes; an engine error is a
   * normal response carrying the error dict, never an exception.
   */
  function Chat(db: Db, req: ChatRequest, minimise: Engine.Minimiser, now: int, render: Render): (out: (Db, ChatResponse))
    ensures Classify(req.message) != OptimizeIntent ==> out.0 == db
    ensures Classify(req.message) == OptimizeIntent ==>
              && out.0 == Engine.OptimizeGrid(db, req.region, minimise, now).db
              && out.1.data == OptimizeData(Engine.OptimizeGrid(db, req.region, minimise, now).reply)
    ensures Classify(req.message) == OptimizeIntent && out.1.data.result.OptimizeError? ==>
              out.1.response == IssuePrefix + Engine.NoStateError
    ensures Classify(req.message) == OptimizeIntent && out.1.data.result.Optimized? ==>
              out.1.response == OptimizedText(out.1.data.result, render)
    ensures Classify(req.message) == StatusIntent ==>
              && out.1.data == StatusData(Engine.GetLatestOptimization(db, req.region))
              && (out.1.data.latest.LatestError? ==> out.1.response == NoResultsText)
              && (out.1.data.latest.LatestFound? ==> out.1.response == StatusText(out.1.data.latest, render))
    ensures Classify(req.message) == HelpIntent ==> out.1 == ChatResponse(HelpText, Commands(HelpCommands))
    ensures Classify(req.message) == OtherIntent ==> out.1 == ChatResponse(FallbackText, Suggestion(FallbackSuggestion))
  {
    match Classify(req.message)
    case OptimizeIntent =>
      var res := Engine.OptimizeGrid(db, req.region, minimise, now);
      var text := if res.reply.OptimizeError? then IssuePrefix + res.reply.error else OptimizedText(res.reply, render);
      (res.db, ChatResponse(text, OptimizeData(res.reply)))
    case StatusIntent =>
      var latest := Engine.GetLatestOptimization(db, req.region);
      var text := if latest.LatestError? then NoResultsText else StatusText(latest, render);
      (db, ChatResponse(text, StatusData(latest)))
    case HelpIntent => (db, ChatResponse(HelpText, Commands(HelpCommands)))
    case OtherIntent => (db, ChatResponse(FallbackText, Suggestion(FallbackSuggestion)))
  }

  /**
   * The message only picks the branch; the region comes from the request
   * alone. Two messages of the same class, with the same request region,
   * have the same effect and the same data, whatever region names the
   * messages spell out.
   */
  lemma RegionComesFromRequestOnly(db: Db, m1: string, m2: string, region: Option<string>, minimise: Engine.Minimiser, now: int, render: Render)
    requires Classify(m1) == Classify(m2)
    ensures var a := Chat(db, ChatRequest(m1, region), minimise, now, render);
            var b := Chat(db, ChatRequest(m2, region), minimise, now, render);
            a == b
  {
  }

  /** The dict `workflow_invoke` returns. */
  datatype WorkflowOutput = WorkflowOutput(output: string, data: ChatData, workflowType: string, toolsUsed: seq<string>)

  const WorkflowType := "grid_optimization"
  const ToolsUsed: seq<string> := ["optimize_grid", "show_last_optimization"]

  /** `request.get("input", "")`. */
  function InputOf(request: map<string, string>): string
  {
    if "input" in request then request["input"] else ""
  }

  /**
   * `workflow_invoke(request)`: the chat handler on the input text with no
   * region, so an optimisation always runs on the globally newest sample;
   * the tool list is reported whichever tool ran.
   */
  function WorkflowInvoke(db: Db, request: map<string, string>, minimise: Engine.Minimiser, now: int, render: Render)
    : (out: (Db, WorkflowOutput))
    ensures var chat := Chat(db, ChatRequest(InputOf(request), None), minimise, now, render);
            out.0 == chat.0 && out.1.output == chat.1.response && out.1.data == chat.1.data
    ensures out.1.workflowType == WorkflowType && out.1.toolsUsed == ToolsUsed
  {
    var (db', response) := Chat(db, ChatRequest(InputOf(request), None), minimise, now, render);
    (db', WorkflowOutput(response.response, response.data, WorkflowType, ToolsUsed))
  }

  /**
   * Through the workflow endpoint an optimisation request ignores any
   * region named in the text: it optimises the newest sample of all.
   */
  lemma WorkflowOptimizesGlobalLatest(db: Db, pre: string, post: string, minimise: Engine.Minimiser, now: int, render: Render)
    ensures var out := WorkflowInvoke(db, map["input" := pre + "optimization" + post], minimise, now, render);
            out.0 == Engine.OptimizeGrid(db, None, minimise, now).db
  {
    OptimizationWordOptimizes(pre, post);
  }
}

=== FILE: engine.dfy ===
/**
 * The optimisation engine of grid_optimization/core/operations.py: read the
 * newest grid sample, minimise the squared imbalance, append one result.
 */
module Engine {
  import opened Common
  import opened Store

  /**
   * SciPy's `minimize((x - demand) ** 2, supply)`, left uninterpreted: the
   * arguments are the demand and the seed supply, the value is the
   * minimiser's estimate `res.x[0]`. Nothing in the model assumes it
   * converges.
   */
  type Minimiser = (real, real) -> real

  const NoStateError := "No grid state data found."
  const NoResultError := "No optimization result found."

  /** The dict `optimize_grid` returns: the four result keys, or the single `error` key. */
  datatype OptimizeReply =
    | Optimized(region: string, optimizedSupply: real, optimizedDemand: real, losses: real)
    | OptimizeError(error: string)

  /** The dict `get_latest_optimization` returns; `timestamp` stands for its ISO rendering. */
  datatype LatestReply =
    | LatestFound(region: string, optimizedSupply: real, optimizedDemand: real, losses: real, timestamp: int)
    | LatestError(error: string)

  /** The database after a call, and the call's reply. */
  datatype Outcome = Outcome(db: Db, reply: OptimizeReply)

  /** The row a successful reply is stored as, stamped with the insertion time. */
  function Record(reply: OptimizeReply, now: int): OptimizationResult
    requires reply.Optimized?
  {
    OptimizationResult(reply.region, reply.optimizedSupply, reply.optimizedDemand, reply.losses, now)
  }

  /** The reply computed from sample `s`: demand passes through, losses are recomputed from the estimate. */
  function Solve(s: GridState, minimise: Minimiser): OptimizeReply
  {
    var x := minimise(s.demand, s.supply);
    Optimized(s.region, x, s.demand, Square(x - s.demand))
  }

  /**
   * `optimize_grid(region)`. With no sample passing the region filter it
   * answers the error dict and writes nothing. Otherwise it solves a newest
   * matching sample, appends exactly one result row stamped `now`, and
   * answers that row's fields.
   */
  function OptimizeGrid(db: Db, region: Option<string>, minimise: Minimiser, now: int): (out: Outcome)
    ensures out.db.states == db.states
    ensures out.reply.OptimizeError? <==> forall s :: s in db.states ==> !Selects(region, s.region)
    ensures out.reply.OptimizeError? ==> out.reply.error == NoStateError && out.db == db
    ensures out.reply.Optimized? ==>
              && out.reply.losses == Square(out.reply.optimizedSupply - out.reply.optimizedDemand)
              && out.reply.losses >= 0.0
              && out.db.results == db.results + [Record(out.reply, now)]
    ensures out.reply.Optimized? ==>
              exists s :: IsLatest(db.states, region, StateRegion, StateTime, s)
                          && out.reply.region == s.region
                          && out.reply.optimizedDemand == s.demand
                          && out.reply.optimizedSupply == minimise(s.demand, s.supply)
  {
    match Latest(db.states, region, StateRegion, StateTime)
    case None => Outcome(db, OptimizeError(NoStateError))
    case Some(s) =>
      var reply := Solve(s, minimise);
      Outcome(Db(db.states, db.results + [Record(reply, now)]), reply)
  }

  /** The dict a stored result row is reported as. */
  function Report(r: OptimizationResult): LatestReply
  {
    LatestFound(r.region, r.optimizedSupply, r.optimizedDemand, r.losses, r.timestamp)
  }

  /**
   * `get_latest_optimization(region)`: a newest result row passing the same
   * region filter, or the error dict. It returns no database: the call is
   * read-only.
   */
  function GetLatestOptimization(db: Db, region: Option<string>): (reply: LatestReply)
    ensures reply.LatestError? <==> forall r :: r in db.results ==> !Selects(region, r.region)
    ensures reply.LatestError? ==> reply.error == NoResultError
    ensures reply.LatestFound? ==>
              exists r :: IsLatest(db.results, region, ResultRegion, ResultTime, r) && reply == Report(r)
  {
    match Latest(db.results, region, ResultRegion, ResultTime)
    case None => LatestError(NoResultError)
    case Some(r) => Report(r)
  }

  /**
   * When the clock has moved past every stored result, the result an
   * optimisation just wrote is what the same query reads back.
   */
  lemma OptimizeThenReadBack(db: Db, region: Option<string>, minimise: Minimiser, now: int)
    requires forall r :: r in db.results ==> r.timestamp < now
    requires OptimizeGrid(db, region, minimise, now).reply.Optimized?
    ensures var out := OptimizeGrid(db, region, minimise, now);
            GetLatestOptimization(out.db, region) == Report(Record(out.reply, now))
  {
    var out := OptimizeGrid(db, region, minimise, now);
    var rec := Record(out.reply, now);
    assert Selects(region, ResultRegion(rec)) by {
      var s :| IsLatest(db.states, region, StateRegion, StateTime, s) && out.reply.region == s.region;
    }
    LatestOfNewerAppend(db.results, rec, region, ResultRegion, ResultTime);
  }

  /**
   * Two calls are never coalesced: optimising twice appends two rows, and
   * neither call rewrites an earlier row.
   */
  lemma OptimizeTwiceAppendsTwice(db: Db, region: Option<string>, minimise: Minimiser, t1: int, t2: int)
    requires OptimizeGrid(db, region, minimise, t1).reply.Optimized?
    ensures var first := OptimizeGrid(db, region, minimise, t1);
            var second := OptimizeGrid(first.db, region, minimise, t2);
            && second.reply.Optimized?
            && |second.db.results| == |db.results| + 2
            && second.db.results[..|db.results|] == db.results
  {
    var first := OptimizeGrid(db, region, minimise, t1);
    var second := OptimizeGrid(first.db, region, minimise, t2);
    assert first.db.states == db.states;
    assert second.reply.Optimized? by {
      assert !(forall s :: s in db.states ==> !Selects(region, s.region));
    }
    assert first.db.results == db.results + [Record(first.reply, t1)];
    assert second.db.results == first.db.results + [Record(second.reply, t2)];
    assert second.db.results[..|db.results|] == first.db.results[..|db.results|];
  }
}

=== FILE: grid_function.dfy ===
/**
 * `GridOptimizationFunction.__call__` of src/nat_toolkit/grid_function.py:
 * pick a region out of the input text, run the optimisation engine on it
 * and turn the reply, or the exception reading it raises, into a result.
 * The engine it imports (grid_core.operations) is not part of this model;
 * it is taken to be the engine of grid_optimization/core/operations.py.
 */
module GridFunction {
  import opened Common
  import opened Text
  import opened Store
  import Engine

  const DefaultRegion := "us-west"

  /** A token that mentions "region" anywhere, so "subregion" and "region:" count. */
  predicate IsRegionPart(w: string)
  {
    Contains(w, "region")
  }

  /**
   * The region the call optimises: "us-west" unless the lower-cased input
   * mentions "region", and then the token after the first token mentioning
   * it that is not the last token, if there is one.
   */
  function RegionOf(input: string): (r: string)
    ensures IsLower(r) && |r| > 0
    ensures !Contains(LowerStr(input), "region") ==> r == DefaultRegion
    ensures NoKeyBefore(Split(LowerStr(input)), IsRegionPart, |Split(LowerStr(input))| - 1) ==> r == DefaultRegion
    ensures Contains(LowerStr(input), "region") ==>
              r == FollowerOfFirst(Split(LowerStr(input)), IsRegionPart).GetOr(DefaultRegion)
  {
    var l := LowerStr(input);
    assert IsLower(DefaultRegion) && |DefaultRegion| > 0;
    if !Contains(l, "region") then DefaultRegion
    else
      var words := Split(l);
      var follower := FollowerOfFirst(words, IsRegionPart);
      if follower.None? then DefaultRegion
      else
        SplitLower(l);
        assert follower.value in words;
        follower.value
  }

  /** A leading token mentioning "region", in any case, makes the next token the region. */
  lemma RegionPartFollower(key: string, w: string)
    requires |key| > 0 && NoSpace(key) && IsRegionPart(LowerStr(key))
    requires |w| > 0 && NoSpace(w)
    ensures RegionOf(key + " " + w) == LowerStr(w)
  {
    var lk, lw := LowerStr(key), LowerStr(w);
    KeyThenWord(key, w);
    assert FollowerOfFirst([lk, lw], IsRegionPart) == Some(lw);
  }

  lemma KeyThenWord(key: string, w: string)
    requires |key| > 0 && NoSpace(key) && IsRegionPart(LowerStr(key))
    requires |w| > 0 && NoSpace(w)
    ensures Split(LowerStr(key + " " + w)) == [LowerStr(key), LowerStr(w)]
    ensures Contains(LowerStr(key + " " + w), "region")
  {
    var lk, lw := LowerStr(key), LowerStr(w);
    LowerTwoWords(key, w);
    SplitTwoWords(lk, lw);
    ContainsBeforeSpace(lk, lw, "region");
  }

  /** "subregion X" names region x: the keyword test is a substring test. */
  lemma SubregionCounts(w: string)
    requires |w| > 0 && NoSpace(w)
    ensures RegionOf("subregion" + " " + w) == LowerStr(w)
  {
    var key := "subregion";
    LowerOfLower(key);
    assert key[3..9] == "region";
    ContainsAt(key, "region", 3);
    RegionPartFollower(key, w);
  }

  /** A keyword in the last token has no successor, so the default stays. */
  lemma TrailingKeywordKeepsDefault(w: string, key: string)
    requires |w| > 0 && NoSpace(w) && !IsRegionPart(LowerStr(w))
    requires |key| > 0 && NoSpace(key)
    ensures RegionOf(w + " " + key) == DefaultRegion
  {
    LowerTwoWords(w, key);
    SplitTwoWords(LowerStr(w), LowerStr(key));
  }

  /** The error mark that opens a failure text. */
  const Cross := "\U{274C}"
  const FailurePrefix := Cross + " Grid optimization failed: "

  /** The efficiency percentage `(supply - losses) / supply * 100`: the share of supply not lost. */
  function Efficiency(supply: real, losses: real): (e: real)
    requires supply != 0.0
    ensures e * supply == (supply - losses) * 100.0
  {
    var share := (supply - losses) / supply;
    assert share * supply == supply - losses;
    share * 100.0
  }

  /** What the call returns: the figures of the result text, or the failure text. */
  datatype CallOutput =
    | Report(region: string, optimizedSupply: real, optimizedDemand: real, losses: real, efficiency: real)
    | Failed(message: string)

  /**
   * The figures of a reply, or the failure text of the exception reading
   * them raises. The call fails exactly on an error reply or a zero supply;
   * a report copies the reply's figures and its efficiency is the share of
   * supply not lost.
   */
  function Format(reply: Engine.OptimizeReply): (out: CallOutput)
    ensures out.Failed? <==> reply.OptimizeError? || reply.optimizedSupply == 0.0
    ensures reply.OptimizeError? ==> out.message == FailurePrefix + "'optimized_supply'"
    ensures reply.Optimized? && reply.optimizedSupply == 0.0 ==> out.message == FailurePrefix + "float division by zero"
    ensures out.Report? ==>
              && out.region == reply.region
              && out.optimizedSupply == reply.optimizedSupply
              && out.optimizedDemand == reply.optimizedDemand
              && out.losses == reply.losses
              && out.efficiency * out.optimizedSupply == (out.optimizedSupply - out.losses) * 100.0
  {
    if reply.OptimizeError? then Failed(FailurePrefix + "'optimized_supply'")
    else if reply.optimizedSupply == 0.0 then Failed(FailurePrefix + "float division by zero")
    else Report(reply.region, reply.optimizedSupply, reply.optimizedDemand, reply.losses, Efficiency(reply.optimizedSupply, reply.losses))
  }

  /**
   * `__call__(input_data)`. Reading `optimized_supply` from the error dict
   * raises a KeyError, and a zero supply makes the efficiency divide by
   * zero; both are caught and turned into the failure text.
   */
  function Call(db: Db, input: string, minimise: Engine.Minimiser, now: int): (out: (Db, CallOutput))
    ensures var res := Engine.OptimizeGrid(db, Some(RegionOf(input)), minimise, now);
            && out.0 == res.db
            && (out.1.Failed? <==> res.reply.OptimizeError? || res.reply.optimizedSupply == 0.0)
            && (res.reply.OptimizeError? ==> out.1.message == FailurePrefix + "'optimized_supply'")
            && (res.reply.Optimized? && res.reply.optimizedSupply == 0.0 ==> out.1.message == FailurePrefix + "float division by zero")
            && (out.1.Report? ==>
                  && out.1.region == res.reply.region
                  && out.1.losses == res.reply.losses
                  && out.1.efficiency == Efficiency(res.reply.optimizedSupply, res.reply.losses))
  {
    var res := Engine.OptimizeGrid(db, Some(RegionOf(input)), minimise, now);
    (res.db, Format(res.reply))
  }

  /**
   * An input naming no region optimises "us-west"; when no "us-west"
   * sample is stored the engine's error surfaces as the failure text and
   * nothing is written.
   */
  lemma MissingRegionFails(db: Db, input: string, minimise: Engine.Minimiser, now: int)
    requires !Contains(LowerStr(input), "region")
    requires forall s :: s in db.states ==> s.region != DefaultRegion
    ensures Call(db, input, minimise, now) == (db, Failed(FailurePrefix + "'optimized_supply'"))
  {
    NoSampleNoWrite(db, DefaultRegion, minimise, now);
  }

  /** With no sample of the region stored, the engine answers its error and writes nothing. */
  lemma NoSampleNoWrite(db: Db, region: string, minimise: Engine.Minimiser, now: int)
    requires region != "" && forall s :: s in db.states ==> s.region != region
    ensures Engine.OptimizeGrid(db, Some(region), minimise, now) == Engine.Outcome(db, Engine.OptimizeError(Engine.NoStateError))
  {
    assert forall s :: s in db.states ==> !Selects(Some(region), s.region);
  }
}

=== FILE: grid_tools.dfy ===
/**
 * src/grid_core/tools/grid_tools.py repeats the engine of
 * grid_optimization/core/operations.py. Its two tools issue a filtered,
 * newest-first SQL query; the code holds no loop. Here that query is
 * refined into one scan over the table, which keeps the first row of
 * greatest timestamp, and the tools are proved to answer exactly what the
 * engine answers.
 */
module GridTools {
  import opened Common
  import opened Store
  import Engine

  /** One pass over the `grid_state` table: a refinement of the filtered, newest-first query. */
  method ScanLatestState(rows: seq<GridState>, region: Option<string>) returns (best: Option<GridState>)
    ensures best == Latest(rows, region, StateRegion, StateTime)
  {
    best := None;
    var i := 0;
    while i < |rows|
      invariant 0 <= i <= |rows|
      invariant best == Scan(rows[..i], region, StateRegion, StateTime)
    {
      var row := rows[i];
      if Selects(region, StateRegion(row)) && (best.None? || StateTime(row) > StateTime(best.value)) {
        best := Some(row);
      }
      assert rows[..i + 1][..i] == rows[..i];
      i := i + 1;
    }
    assert rows[..|rows|] == rows;
    ScanIsLatest(rows, region, StateRegion, StateTime);
  }

  /** The same pass over the `optimization_result` table. */
  method ScanLatestResult(rows: seq<OptimizationResult>, region: Option<string>) returns (best: Option<OptimizationResult>)
    ensures best == Latest(rows, region, ResultRegion, ResultTime)
  {
    best := None;
    var i := 0;
    while i < |rows|
      invariant 0 <= i <= |rows|
      invariant best == Scan(rows[..i], region, ResultRegion, ResultTime)
    {
      var row := rows[i];
      if Selects(region, ResultRegion(row)) && (best.None? || ResultTime(row) > ResultTime(best.value)) {
        best := Some(row);
      }
      assert rows[..i + 1][..i] == rows[..i];
      i := i + 1;
    }
    assert rows[..|rows|] == rows;
    ScanIsLatest(rows, region, ResultRegion, ResultTime);
  }

  /** `optimize_grid` of grid_tools.py: observably the engine's `optimize_grid`. */
  method OptimizeGrid(db: Db, region: Option<string>, minimise: Engine.Minimiser, now: int) returns (out: Engine.Outcome)
    ensures out == Engine.OptimizeGrid(db, region, minimise, now)
  {
    var state := ScanLatestState(db.states, region);
    if state.None? {
      return Engine.Outcome(db, Engine.OptimizeError(Engine.NoStateError));
    }
    var s := state.value;
    var demand := s.demand;
    var optimizedSupply := minimise(demand, s.supply);
    var losses := Square(optimizedSupply - demand);
    var reply := Engine.Optimized(s.region, optimizedSupply, demand, losses);
    assert reply == Engine.Solve(s, minimise);
    out := Engine.Outcome(Db(db.states, db.results + [Engine.Record(reply, now)]), reply);
  }

  /** `show_last_optimization` of grid_tools.py: observably the engine's `get_latest_optimization`. */
  method ShowLastOptimization(db: Db, region: Option<string>) returns (reply: Engine.LatestReply)
    ensures reply == Engine.GetLatestOptimization(db, region)
  {
    var latest := ScanLatestResult(db.results, region);
    if latest.None? {
      return Engine.LatestError(Engine.NoResultError);
    }
    var r := latest.value;
    reply := Engine.LatestFound(r.region, r.optimizedSupply, r.optimizedDemand, r.losses, r.timestamp);
  }
}

=== FILE: runtime_fallback.dfy ===
/**
 * The fallback runtime of src/grid_core/runtime_fallback.py: an
 * initialised flag guarding `run_workflow`, which routes a free-text
 * query to one of the two grid tools by keyword and pulls a region name
 * out of the text.
 */
module RuntimeFallback {
  import opened Common
  import opened Text
  import opened Store
  import Engine

  /** `AIQRuntime`: only the `_initialized` flag carries state. */
  datatype Runtime = Runtime(initialized: bool)

  /** A freshly constructed runtime is not initialised. */
  function NewRuntime(): (rt: Runtime)
    ensures !rt.initialized
  {
    Runtime(false)
  }

  function Initialize(rt: Runtime): (r: Runtime)
    ensures r.initialized
  {
    Runtime(true)
  }

  function Shutdown(rt: Runtime): (r: Runtime)
    ensures !r.initialized
  {
    Runtime(false)
  }

  /** The lifecycle calls a caller may make, in order. */
  datatype Lifecycle = InitializeCall | ShutdownCall

  /** The runtime after a sequence of lifecycle calls. */
  function Replay(rt: Runtime, calls: seq<Lifecycle>): Runtime
  {
    if |calls| == 0 then rt
    else
      var before := Replay(rt, calls[..|calls| - 1]);
      match calls[|calls| - 1]
      case InitializeCall => Initialize(before)
      case ShutdownCall => Shutdown(before)
  }

  /**
   * From a fresh runtime, a sequence of calls leaves it initialised
   * exactly when there was one and the last was `initialize`: every
   * `shutdown` revokes, every `initialize` restores.
   */
  lemma {:induction false} ReplayInitializedIffLastInitialize(calls: seq<Lifecycle>)
    ensures Replay(NewRuntime(), calls).initialized <==> |calls| > 0 && calls[|calls| - 1] == InitializeCall
  {
    if |calls| > 0 {
      ReplayInitializedIffLastInitialize(calls[..|calls| - 1]);
    }
  }

  /** The three ways `run_workflow` can answer. */
  datatype Branch = OptimizeBranch | ShowBranch | ReadyBranch

  /**
   * Keyword routing on the lower-cased query, first test wins: "optimize"
   * selects the optimise branch; otherwise "show", "last" or "result"
   * selects the show branch; anything else gets the ready text.
   */
  function SelectBranch(query: string): (b: Branch)
    ensures b == OptimizeBranch <==> Contains(LowerStr(query), "optimize")
    ensures b == ShowBranch <==>
              && !Contains(LowerStr(query), "optimize")
              && (Contains(LowerStr(query), "show") || Contains(LowerStr(query), "last") || Contains(LowerStr(query), "result"))
  {
    var q := LowerStr(query);
    if Contains(q, "optimize") then OptimizeBranch
    else if Contains(q, "show") || Contains(q, "last") || Contains(q, "result") then ShowBranch
    else ReadyBranch
  }

  /** Routing ignores case: a query routes like its lower-cased form. */
  lemma SelectBranchIgnoresCase(query: string)
    ensures SelectBranch(LowerStr(query)) == SelectBranch(query)
  {
    LowerOfLower(LowerStr(query));
  }

  /** Once a query mentions "optimize", no text added before or after it moves it to another branch. */
  lemma OptimizeDominates(pre: string, query: string, post: string)
    requires SelectBranch(query) == OptimizeBranch
    ensures SelectBranch(pre + query + post) == OptimizeBranch
  {
    LowerAppend(pre, query);
    LowerAppend(pre + query, post);
    ContainsAppend(LowerStr(query), LowerStr(post), "optimize");
    ContainsAppend(LowerStr(query) + LowerStr(post), LowerStr(pre), "optimize");
    assert LowerStr(pre + query + post) == LowerStr(pre) + (LowerStr(query) + LowerStr(post));
  }

  /** A lower-case query without the letter e that starts with "show" is routed to the show branch. */
  lemma ShowWithoutE(q: string)
    requires IsLower(q) && 'e' !in q && StartsWith(q, "show")
    ensures SelectBranch(q) == ShowBranch
  {
    LowerOfLower(q);
    NotContainsByChar(q, "optimize", 'e');
  }

  /**
   * "optimization" does not contain "optimize", so "show last
   * optimization" is routed to the show branch, not to a new optimisation.
   */
  lemma ShowLastOptimizationShows()
    ensures SelectBranch("show last optimization") == ShowBranch
  {
    ShowWithoutE("show last optimization");
  }

  /** The fixed region names `_extract_region` looks for, in the order it tries them. */
  const RegionPatterns: seq<string> := ["us-west", "us-east", "us-central", "pgae", "pge", "socal"]

  /** None of the first `k` patterns occurs in `text`. */
  predicate NoPatternBefore(text: string, patterns: seq<string>, k: int)
  {
    forall j :: 0 <= j < k && j < |patterns| ==> !Contains(text, patterns[j])
  }

  /** The first of `patterns`, in list order, that occurs in `text`. */
  function FirstContained(text: string, patterns: seq<string>): (r: Option<string>)
    ensures r.None? <==> NoPatternBefore(text, patterns, |patterns|)
    ensures r.Some? ==> exists k :: 0 <= k < |patterns| && patterns[k] == r.value && Contains(text, r.value)
                                    && NoPatternBefore(text, patterns, k)
  {
    if |patterns| == 0 then None
    else if Contains(text, patterns[0]) then Some(patterns[0])
    else
      var r := FirstContained(text, patterns[1..]);
      assert forall j :: 1 <= j < |patterns| ==> patterns[j] == patterns[1..][j - 1];
      r
  }

  /** A whitespace token that reads "region" in any case. */
  predicate IsRegionWord(w: string)
  {
    LowerStr(w) == "region"
  }

  /**
   * The region scan of `_extract_region` over a list of names: the first
   * name occurring anywhere in the lower-cased query; failing that, the
   * lower-cased token after the first token "region" that has a successor;
   * failing that, nothing.
   */
  function ExtractWith(query: string, patterns: seq<string>): (r: Option<string>)
    requires forall k :: 0 <= k < |patterns| ==> IsLower(patterns[k]) && |patterns[k]| > 0
    ensures r.Some? ==> IsLower(r.value) && |r.value| > 0
    ensures r.None? ==> NoPatternBefore(LowerStr(query), patterns, |patterns|)
    ensures r.None? ==> NoKeyBefore(Split(query), IsRegionWord, |Split(query)| - 1)
    ensures (NoPatternBefore(LowerStr(query), patterns, |patterns|)
             && NoKeyBefore(Split(query), IsRegionWord, |Split(query)| - 1)) ==> r.None?
    ensures forall k :: (0 <= k < |patterns| && Contains(LowerStr(query), patterns[k])
                         && NoPatternBefore(LowerStr(query), patterns, k)) ==> r == Some(patterns[k])
    ensures NoPatternBefore(LowerStr(query), patterns, |patterns|) && r.Some? ==>
              exists i :: 0 <= i < |Split(query)| - 1 && IsRegionWord(Split(query)[i])
                          && NoKeyBefore(Split(query), IsRegionWord, i)
                          && r.value == LowerStr(Split(query)[i + 1])
  {
    var q := LowerStr(query);
    var listed := FirstContained(q, patterns);
    if listed.Some? then
      assert forall k :: 0 <= k < |patterns| && Contains(q, patterns[k]) && NoPatternBefore(q, patterns, k)
                         ==> listed.value == patterns[k];
      listed
    else
      var words := Split(query);
      var follower := FollowerOfFirst(words, IsRegionWord);
      if follower.None? then None else Some(LowerStr(follower.value))
  }

  /** `_extract_region`: the scan over the six listed names; any answer is a non-empty lower-case name. */
  function ExtractRegion(query: string): (r: Option<string>)
    ensures r.Some? ==> IsLower(r.value) && |r.value| > 0
  {
    ExtractWith(query, RegionPatterns)
  }

  /**
   * List order wins over position in the text: once "us-west" occurs in
   * any case, it is the answer even when another listed name comes first.
   */
  lemma UsWestWinsAnywhere(pre: string, other: string, post: string)
    requires other in RegionPatterns
    ensures ExtractRegion(pre + other + "US-West" + post) == Some("us-west")
  {
    var q := pre + other + "US-West" + post;
    LowerAppend(pre + other, "US-West");
    LowerAppend(pre + other + "US-West", post);
    assert LowerStr("US-West") == "us-west";
    ContainsMiddle(LowerStr(pre + other), "us-west", LowerStr(post));
    assert NoPatternBefore(LowerStr(q), RegionPatterns, 0);
  }

  /**
   * With no listed name present, "region X" (the keyword in any case)
   * names region x.
   */
  lemma RegionKeywordFollower(key: string, w: string)
    requires IsRegionWord(key) && NoSpace(key)
    requires |w| > 0 && NoSpace(w)
    requires NoPatternBefore(LowerStr(key + " " + w), RegionPatterns, |RegionPatterns|)
    ensures ExtractRegion(key + " " + w) == Some(LowerStr(w))
  {
    assert |key| == 6;
    SplitTwoWords(key, w);
    assert FollowerOfFirst([key, w], IsRegionWord) == Some(w);
  }

  /** The text of the ready branch. */
  const ReadyText := "Grid optimization system is ready. Available commands: 'optimize grid' or 'show last results'"

  const NotInitializedError := "Runtime not initialized"

  /** The dict `run_workflow` returns. */
  datatype WorkflowReply = WorkflowReply(output: string, tokensUsed: int, executionTime: real, success: bool)

  /** `input_data.get("query", "")`. */
  function QueryOf(input: map<string, string>): string
  {
    if "query" in input then input["query"] else ""
  }

  const ErrorPrefix := "Error: "
  const CompletedPrefix := "Grid optimization completed for region "
  const MissPrefix := "No optimization results found for region "
  const FoundPrefix := "Last optimization for region "

  /**
   * The output text of the optimise branch, from the tool's reply. The
   * text tells the two replies apart: only an error starts with "Error: ",
   * and the error message can be read back after it.
   */
  function OptimizeText(reply: Engine.OptimizeReply, render: Render): (t: string)
    ensures reply.OptimizeError? <==> StartsWith(t, ErrorPrefix)
    ensures reply.OptimizeError? ==> t[|ErrorPrefix|..] == reply.error
    ensures reply.Optimized? ==> StartsWith(t, CompletedPrefix + reply.region + ". ")
  {
    match reply
    case OptimizeError(e) => ErrorPrefix + e
    case Optimized(region, supply, demand, losses) =>
      var t := CompletedPrefix + region + ". "
        + "Optimized supply: " + render.fixed2(supply) + ", "
        + "Optimized demand: " + render.fixed2(demand) + ", "
        + "Losses: " + render.fixed2(losses);
      assert t[0] == 'G' && ErrorPrefix[0] == 'E';
      assert (CompletedPrefix + region + ". ") <= t;
      t
  }

  /**
   * The output text of the show branch. Only a miss starts with the
   * no-results text, and what follows it is the requested region, or
   * "default" when none was extracted (`region or 'default'`; an extracted
   * region is never empty).
   */
  function ShowText(reply: Engine.LatestReply, region: Option<string>, render: Render): (t: string)
    ensures reply.LatestError? <==> StartsWith(t, MissPrefix)
    ensures reply.LatestError? ==> t[|MissPrefix|..] == region.GetOr("default")
    ensures reply.LatestFound? ==> StartsWith(t, FoundPrefix + reply.region + ": ")
  {
    match reply
    case LatestError(_) => MissPrefix + region.GetOr("default")
    case LatestFound(r, supply, demand, losses, time) =>
      var t := FoundPrefix + r + ": "
        + "Supply: " + render.fixed2(supply) + ", "
        + "Demand: " + render.fixed2(demand) + ", "
        + "Losses: " + render.fixed2(losses) + ", "
        + "Timestamp: " + render.iso(time);
      assert t[0] == 'L' && MissPrefix[0] == 'N';
      assert (FoundPrefix + r + ": ") <= t;
      t
  }

  /**
   * `run_workflow(name, input_data)`. The workflow name is ignored. It
   * raises unless the runtime is initialised; otherwise it always succeeds,
   * and only the optimise branch writes to the database.
   */
  function RunWorkflow(rt: Runtime, db: Db, input: map<string, string>, minimise: Engine.Minimiser, now: int, render: Render)
    : (r: Result<(Db, WorkflowReply), string>)
    ensures r.Failure? <==> !rt.initialized
    ensures r.Failure? ==> r.error == NotInitializedError
    ensures r.Success? ==>
              var (db', reply) := r.value;
              && reply.success
              && reply.executionTime == 1.0
              && reply.tokensUsed == |QueryOf(input)| + |reply.output|
    ensures r.Success? && SelectBranch(QueryOf(input)) != OptimizeBranch ==> r.value.0 == db
    ensures r.Success? && SelectBranch(QueryOf(input)) == OptimizeBranch ==>
              r.value.0 == Engine.OptimizeGrid(db, ExtractRegion(QueryOf(input)), minimise, now).db
    ensures r.Success? && SelectBranch(QueryOf(input)) == OptimizeBranch ==>
              r.value.1.output == OptimizeText(Engine.OptimizeGrid(db, ExtractRegion(QueryOf(input)), minimise, now).reply, render)
    ensures r.Success? && SelectBranch(QueryOf(input)) == ShowBranch ==>
              var region := ExtractRegion(QueryOf(input));
              r.value.1.output == ShowText(Engine.GetLatestOptimization(db, region), region, render)
    ensures r.Success? && SelectBranch(QueryOf(input)) == ReadyBranch ==> r.value.1.output == ReadyText
  {
    if !rt.initialized then Failure(NotInitializedError)
    else
      var query := QueryOf(input);
      var (db', output) :=
        match SelectBranch(query)
        case OptimizeBranch =>
          var out := Engine.OptimizeGrid(db, ExtractRegion(query), minimise, now);
          (out.db, OptimizeText(out.reply, render))
        case ShowBranch =>
          var region := ExtractRegion(query);
          (db, ShowText(Engine.GetLatestOptimization(db, region), region, render))
        case ReadyBranch => (db, ReadyText);
      Success((db', WorkflowReply(output, |query| + |output|, 1.0, true)))
  }

  /** `run_workflow` answers after a sequence of lifecycle calls exactly when the last call was `initialize`. */
  lemma RunWorkflowAfterLifecycle(calls: seq<Lifecycle>, db: Db, input: map<string, string>, minimise: Engine.Minimiser, now: int, render: Render)
    ensures RunWorkflow(Replay(NewRuntime(), calls), db, input, minimise, now, render).Success?
            <==> |calls| > 0 && calls[|calls| - 1] == InitializeCall
  {
    ReplayInitializedIffLastInitialize(calls);
  }

  /** Asking for the last results never writes: the database after the show branch is the one before. */
  lemma ShowIsReadOnly(rt: Runtime, db: Db, minimise: Engine.Minimiser, now: int, render: Render)
    requires rt.initialized
    ensures var r := RunWorkflow(rt, db, map["query" := "show last optimization"], minimise, now, render);
            r.Success? && r.value.0 == db
  {
    ShowLastOptimizationShows();
  }

  /**
   * Asking for results when none is stored for the extracted region answers
   * "No optimization results found for region " and that region, or
   * "default" when the query names none.
   */
  lemma ShowMissText(rt: Runtime, db: Db, input: map<string, string>, minimise: Engine.Minimiser, now: int, render: Render)
    requires rt.initialized && SelectBranch(QueryOf(input)) == ShowBranch
    requires forall x :: x in db.results ==> !Selects(ExtractRegion(QueryOf(input)), x.region)
    ensures var r := RunWorkflow(rt, db, input, minimise, now, render);
            && r.Success?
            && r.value.1.output == "No optimization results found for region " + ExtractRegion(QueryOf(input)).GetOr("default")
  {
    var region := ExtractRegion(QueryOf(input));
    var t := ShowText(Engine.GetLatestOptimization(db, region), region, render);
    assert t[|MissPrefix|..] == region.GetOr("default");
    assert t == MissPrefix + t[|MissPrefix|..];
  }

  /** Optimising with no sample of the extracted region answers "Error: " and the no-sample message, and writes nothing. */
  lemma OptimizeMissText(rt: Runtime, db: Db, input: map<string, string>, minimise: Engine.Minimiser, now: int, render: Render)
    requires rt.initialized && SelectBranch(QueryOf(input)) == OptimizeBranch
    requires forall x :: x in db.states ==> !Selects(ExtractRegion(QueryOf(input)), x.region)
    ensures var r := RunWorkflow(rt, db, input, minimise, now, render);
            && r.Success?
            && r.value.0 == db
            && r.value.1.output == "Error: " + Engine.NoStateError
  {
    var out := Engine.OptimizeGrid(db, ExtractRegion(QueryOf(input)), minimise, now);
    assert out.reply == Engine.OptimizeError(Engine.NoStateError) && out.db == db;
    NoStateText(render);
  }

  lemma NoStateText(render: Render)
    ensures OptimizeText(Engine.OptimizeError(Engine.NoStateError), render) == "Error: " + Engine.NoStateError
  {
    var t := OptimizeText(Engine.OptimizeError(Engine.NoStateError), render);
    assert t[|ErrorPrefix|..] == Engine.NoStateError;
    assert t == ErrorPrefix + t[|ErrorPrefix|..];
  }
}

=== FILE: security.dfy ===
/**
 * Region admission and input hygiene (grid_optimization/core/security.py).
 * Validation is a gate that answers yes or no; sanitisation is a
 * best-effort normaliser that never rejects.
 */
module Security {
  import opened Common
  import opened Text

  /** The access-control allow-list. It is independent of the display catalog. */
  const ValidRegions: set<string> :=
    {"us-west", "us-east", "us-central", "us-south", "europe", "asia", "default", "test-region"}

  /**
   * `validate_region_access`. `None` stands for `None` and for every
   * non-string argument; both are refused, as is the empty string. Otherwise
   * the stripped, lower-cased name must be on the allow-list.
   */
  function ValidateRegionAccess(region: Option<string>): (ok: bool)
    ensures region.None? || region == Some("") ==> !ok
    ensures ok <==> region.Some? && Strip(LowerStr(region.value)) in ValidRegions
  {
    match region
    case None => false
    case Some(s) =>
      if s == "" then
        assert |Strip(LowerStr(s))| == 0;
        assert forall v :: v in ValidRegions ==> |v| > 0;
        false
      else
        StripLowerCommute(s);
        LowerStr(Strip(s)) in ValidRegions
  }

  /** Admission depends only on the lower-cased text: case never matters. */
  lemma ValidationIgnoresCase(a: string, b: string)
    requires LowerStr(a) == LowerStr(b)
    ensures ValidateRegionAccess(Some(a)) == ValidateRegionAccess(Some(b))
  {
    StripLowerCommute(a);
    StripLowerCommute(b);
  }

  /** Admission ignores surrounding whitespace. */
  lemma ValidationIgnoresPadding(pre: string, s: string, post: string)
    requires AllSpace(pre) && AllSpace(post)
    ensures ValidateRegionAccess(Some(pre + s + post)) == ValidateRegionAccess(Some(s))
  {
    var l := LowerStr(pre + s + post);
    LowerAppend(pre + s, post);
    LowerAppend(pre, s);
    assert AllSpace(LowerStr(pre)) && AllSpace(LowerStr(post));
    StripIgnoresPadding(LowerStr(pre), LowerStr(s), LowerStr(post));
  }

  lemma AcceptsUsWest()
    ensures ValidateRegionAccess(Some("us-west"))
  {
    Unchanged("us-west");
  }

  lemma AcceptsTestRegion()
    ensures ValidateRegionAccess(Some("test-region"))
  {
    Unchanged("test-region");
  }

  lemma RejectsInvalidRegion()
    ensures !ValidateRegionAccess(Some("invalid-region"))
  {
    Unchanged("invalid-region");
    NotAllowListed("invalid-region");
  }

  /** "pgae" is in the display catalog but not on the allow-list. */
  lemma RejectsPgae()
    ensures !ValidateRegionAccess(Some("pgae"))
  {
    Unchanged("pgae");
    NotAllowListed("pgae");
  }

  /** The allow-listed names have lengths 4 ("asia"), 6, 7, 8, 10 and 11. */
  lemma NotAllowListed(v: string)
    requires |v| !in {4, 6, 7, 8, 10, 11} || (|v| == 4 && v[0] != 'a')
    ensures v !in ValidRegions
  {
  }

  /** A lower-case name without surrounding whitespace normalises to itself. */
  lemma Unchanged(s: string)
    requires IsLower(s) && (|s| > 0 ==> !IsSpace(s[0]) && !IsSpace(s[|s| - 1]))
    ensures Strip(LowerStr(s)) == s
  {
    LowerOfLower(s);
    StripUnpadded(s);
  }

  /** The characters `sanitize_region_name` keeps: `isalnum()` or one of `-` and `_`. */
  predicate Kept(c: char)
  {
    IsAlnum(c) || c == '-' || c == '_'
  }

  /** The characters a sanitised name is made of. */
  predicate SafeChar(c: char)
  {
    IsDigit(c) || ('a' <= c <= 'z') || c == '-' || c == '_'
  }

  predicate AllSafe(s: string)
  {
    forall i :: 0 <= i < |s| ==> SafeChar(s[i])
  }

  /** The generator `c for c in s if c.isalnum() or c in "-_"`. */
  function KeepSafe(s: string): (r: string)
    ensures |r| <= |s|
    ensures forall c :: c in r ==> c in s && Kept(c)
  {
    if |s| == 0 then []
    else if Kept(s[0]) then [s[0]] + KeepSafe(s[1..])
    else KeepSafe(s[1..])
  }

  lemma {:induction false} KeepSafeAppend(a: string, b: string)
    ensures KeepSafe(a + b) == KeepSafe(a) + KeepSafe(b)
    decreases |a|
  {
    if |a| == 0 {
      assert a + b == b;
    } else {
      assert (a + b)[1..] == a[1..] + b;
      KeepSafeAppend(a[1..], b);
    }
  }

  lemma {:induction false} KeepSafeOfSafe(s: string)
    requires AllSafe(s)
    ensures KeepSafe(s) == s
    decreases |s|
  {
    if |s| > 0 {
      KeepSafeOfSafe(s[1..]);
    }
  }

  lemma {:induction false} KeepSafeOfUnkept(s: string)
    requires forall i :: 0 <= i < |s| ==> !Kept(s[i])
    ensures KeepSafe(s) == []
    decreases |s|
  {
    if |s| > 0 {
      KeepSafeOfUnkept(s[1..]);
    }
  }

  /** `s[:n]`: Python slicing clamps the bound to the length. */
  function Take(s: string, n: nat): (r: string)
    ensures |r| <= n && |r| <= |s|
    ensures |r| == if |s| <= n then |s| else n
    ensures |s| <= n ==> r == s
    ensures r == s[..|r|]
  {
    if |s| <= n then s else s[..n]
  }

  const MaxRegionNameLength := 50

  /**
   * `sanitize_region_name`: lower-case, keep alphanumerics, `-` and `_`,
   * cut to 50 characters, and fall back to "default" when the argument is
   * missing, empty or nothing survives.
   */
  function SanitizeRegionName(region: Option<string>): (r: string)
    ensures r == "default" || (0 < |r| <= MaxRegionNameLength && AllSafe(r))
    ensures region.None? || region == Some("") ==> r == "default"
    ensures r != "default" ==> forall c :: c in r ==> c in LowerStr(region.value)
    ensures r != "default" ==> StartsWith(KeepSafe(LowerStr(region.value)), r)
    ensures region.Some? && |KeepSafe(LowerStr(region.value))| >= MaxRegionNameLength ==> |r| == MaxRegionNameLength
    ensures region.Some? && KeepSafe(LowerStr(region.value)) == [] ==> r == "default"
    ensures region.Some? && KeepSafe(LowerStr(region.value)) != [] ==>
              var kept := KeepSafe(LowerStr(region.value));
              && StartsWith(kept, r)
              && |r| == if |kept| < MaxRegionNameLength then |kept| else MaxRegionNameLength
  {
    match region
    case None => "default"
    case Some(s) =>
      if s == "" then "default"
      else
        var kept := Take(KeepSafe(LowerStr(s)), MaxRegionNameLength);
        assert forall c :: c in kept ==> c in KeepSafe(LowerStr(s));
        assert forall i :: 0 <= i < |kept| ==> kept[i] in kept;
        assert StartsWith(KeepSafe(LowerStr(s)), kept);
        if kept == "" then "default" else kept
  }

  /** When no character is an alphanumeric, `-` or `_`, the result is "default". */
  lemma SanitizeNothingKept(s: string)
    requires forall i :: 0 <= i < |s| ==> !Kept(s[i])
    ensures SanitizeRegionName(Some(s)) == "default"
  {
    KeepSafeOfUnkept(LowerStr(s));
  }

  lemma DefaultIsSafe()
    ensures AllSafe("default") && IsLower("default")
  {
  }

  /** Sanitising a sanitised name changes nothing. */
  lemma SanitizeIdempotent(region: Option<string>)
    ensures SanitizeRegionName(Some(SanitizeRegionName(region))) == SanitizeRegionName(region)
  {
    var r := SanitizeRegionName(region);
    DefaultIsSafe();
    assert AllSafe(r) && |r| <= MaxRegionNameLength && r != "";
    assert IsLower(r);
    LowerOfLower(r);
    KeepSafeOfSafe(r);
  }

  lemma AllowListedIsSafe(v: string)
    requires v in ValidRegions
    ensures 0 < |v| <= MaxRegionNameLength && AllSafe(v)
  {
    if v == "us-west" {} else if v == "us-east" {} else if v == "us-central" {} else if v == "us-south" {}
    else if v == "europe" {} else if v == "asia" {} else if v == "default" {} else {}
  }

  /**
   * For every admitted name, sanitising yields exactly the normalised name
   * `strip().lower()` that validation looked up.
   */
  lemma SanitizeAgreesWithValidation(s: string)
    requires ValidateRegionAccess(Some(s))
    ensures SanitizeRegionName(Some(s)) == Strip(LowerStr(s))
  {
    SanitizeAllowListed(s);
  }

  lemma SanitizeAllowListed(s: string)
    requires Strip(LowerStr(s)) in ValidRegions
    ensures SanitizeRegionName(Some(s)) == Strip(LowerStr(s))
  {
    AllowListedIsSafe(Strip(LowerStr(s)));
    SanitizeSafeCore(s);
  }

  /** When the stripped, lower-cased text is short and safe, the filter keeps exactly it. */
  lemma SanitizeSafeCore(s: string)
    requires var v := Strip(LowerStr(s)); 0 < |v| <= MaxRegionNameLength && AllSafe(v)
    ensures SanitizeRegionName(Some(s)) == Strip(LowerStr(s))
  {
    var l := LowerStr(s);
    var i, j := StripFrames(l);
    KeepSafeFramed(l, i, j);
    assert s != "";
  }

  /** Whitespace framing safe text is exactly what the character filter removes. */
  lemma KeepSafeFramed(l: string, i: nat, j: nat)
    requires i <= j <= |l| && AllSpace(l[..i]) && AllSpace(l[j..]) && AllSafe(l[i..j])
    ensures KeepSafe(l) == l[i..j]
  {
    var pre, core, post := l[..i], l[i..j], l[j..];
    assert l == pre + core + post;
    assert forall k :: 0 <= k < |pre| ==> !Kept(pre[k]);
    assert forall k :: 0 <= k < |post| ==> !Kept(post[k]);
    calc {
      KeepSafe(pre + core + post);
    == { KeepSafeAppend(pre + core, post); }
      KeepSafe(pre + core) + KeepSafe(post);
    == { KeepSafeAppend(pre, core); }
      KeepSafe(pre) + KeepSafe(core) + KeepSafe(post);
    == { KeepSafeOfUnkept(pre); KeepSafeOfSafe(core); KeepSafeOfUnkept(post); }
      [] + core + [];
    == { assert [] + core + [] == core; }
      core;
    }
  }

  lemma SanitizeMixedCase()
    ensures SanitizeRegionName(Some("US-West")) == "us-west"
  {
    assert LowerStr("US-West") == "us-west";
    KeepSafeOfSafe("us-west");
  }

  /**
   * A run of characters other than alphanumerics, `-` and `_` between two
   * short safe names vanishes: "test@#$%region" becomes "testregion".
   */
  lemma SanitizeDropsPunctuation(a: string, junk: string, b: string)
    requires AllSafe(a) && AllSafe(b) && 0 < |a + b| <= MaxRegionNameLength
    requires forall i :: 0 <= i < |junk| ==> !Kept(junk[i])
    ensures SanitizeRegionName(Some(a + junk + b)) == a + b
  {
    LowerFramed(a, junk, b);
    UnkeptLower(junk);
    KeepSafeDrops(a, LowerStr(junk), b);
    assert a + junk + b != "";
  }

  /**
   * Dropped characters never matter, wherever they sit: removing a run of
   * them from any text leaves the sanitised name unchanged.
   */
  lemma SanitizeIgnoresDropped(a: string, junk: string, b: string)
    requires forall i :: 0 <= i < |junk| ==> !Kept(junk[i])
    ensures SanitizeRegionName(Some(a + junk + b)) == SanitizeRegionName(Some(a + b))
  {
    var la, lj, lb := LowerStr(a), LowerStr(junk), LowerStr(b);
    LowerAppend(a + junk, b);
    LowerAppend(a, junk);
    LowerAppend(a, b);
    UnkeptLower(junk);
    KeepSafeOfUnkept(lj);
    calc {
      KeepSafe(LowerStr(a + junk + b));
    == { KeepSafeAppend(la + lj, lb); }
      KeepSafe(la + lj) + KeepSafe(lb);
    == { KeepSafeAppend(la, lj); }
      KeepSafe(la) + KeepSafe(lj) + KeepSafe(lb);
    == { assert KeepSafe(la) + [] == KeepSafe(la); }
      KeepSafe(la) + KeepSafe(lb);
    == { KeepSafeAppend(la, lb); }
      KeepSafe(LowerStr(a + b));
    }
    if a + b == "" {
      assert KeepSafe(LowerStr(a + junk + b)) == [];
    }
  }

  /**
   * The cut keeps the first 50 kept characters: once a prefix of the input
   * already holds 50 of them, nothing after it can change the result.
   */
  lemma SanitizeKeepsFirst(s: string, t: string)
    requires |KeepSafe(LowerStr(s))| >= MaxRegionNameLength
    ensures SanitizeRegionName(Some(s + t)) == SanitizeRegionName(Some(s))
  {
    var ks, kt := KeepSafe(LowerStr(s)), KeepSafe(LowerStr(t));
    LowerAppend(s, t);
    KeepSafeAppend(LowerStr(s), LowerStr(t));
    assert (ks + kt)[..MaxRegionNameLength] == ks[..MaxRegionNameLength];
    assert s != "" && s + t != "";
  }

  /** Lower-casing text framed by safe text only lower-cases the middle. */
  lemma LowerFramed(a: string, junk: string, b: string)
    requires AllSafe(a) && AllSafe(b)
    ensures LowerStr(a + junk + b) == a + LowerStr(junk) + b
  {
    LowerAppend(a + junk, b);
    LowerAppend(a, junk);
    LowerOfLower(a);
    LowerOfLower(b);
  }

  /** Lower-casing never makes a dropped character kept. */
  lemma UnkeptLower(junk: string)
    requires forall i :: 0 <= i < |junk| ==> !Kept(junk[i])
    ensures forall i :: 0 <= i < |junk| ==> !Kept(LowerStr(junk)[i])
  {
  }

  /** The filter removes a run of dropped characters between two safe texts. */
  lemma KeepSafeDrops(a: string, junk: string, b: string)
    requires AllSafe(a) && AllSafe(b)
    requires forall i :: 0 <= i < |junk| ==> !Kept(junk[i])
    ensures KeepSafe(a + junk + b) == a + b
  {
    calc {
      KeepSafe(a + junk + b);
    == { KeepSafeAppend(a + junk, b); }
      KeepSafe(a + junk) + KeepSafe(b);
    == { KeepSafeAppend(a, junk); }
      KeepSafe(a) + KeepSafe(junk) + KeepSafe(b);
    == { KeepSafeOfSafe(a); KeepSafeOfUnkept(junk); KeepSafeOfSafe(b); }
      a + [] + b;
    == { assert a + [] == a; }
      a + b;
    }
  }

  /** The substrings `validate_input` refuses, matched case-insensitively. */
  const DangerousPatterns: seq<string> := ["<script", "javascript:", "eval(", "exec("]

  predicate Dangerous(s: string)
  {
    exists k :: 0 <= k < |DangerousPatterns| && Contains(LowerStr(s), DangerousPatterns[k])
  }

  /** The shapes of data `validate_input` distinguishes. */
  datatype Value =
    | Null                          // None
    | Str(text: string)             // str
    | Dict(entries: seq<Entry>)     // dict, in iteration order
    | List(items: seq<Value>)       // list
    | Scalar                        // numbers, booleans, tuples and every other object
  datatype Entry = Entry(key: Value, val: Value)

  /**
   * `validate_input`: refuses `None`, over-long strings and strings holding
   * a dangerous pattern; checks dict keys against a tenth of the limit
   * (floor division: Dafny's `/` agrees with Python's `//` for the divisor
   * 10) and dict values and list items against the full limit; accepts
   * anything else.
   */
  function ValidateInput(data: Value, maxLength: int): (ok: bool)
    ensures data.Null? ==> !ok
    ensures data.Scalar? ==> ok
    ensures data.Str? ==> (ok <==> |data.text| <= maxLength && !Dangerous(data.text))
    decreases data
  {
    match data
    case Null => false
    case Str(s) => |s| <= maxLength && !Dangerous(s)
    case Dict(es) =>
      forall i :: 0 <= i < |es| ==> ValidateInput(es[i].key, maxLength / 10) && ValidateInput(es[i].val, maxLength)
    case List(xs) => forall i :: 0 <= i < |xs| ==> ValidateInput(xs[i], maxLength)
    case Scalar => true
  }

  /** Raising the length limit never turns an accepted value into a rejected one. */
  lemma {:induction false} ValidateInputMonotone(data: Value, m: int, m': int)
    requires m <= m' && ValidateInput(data, m)
    ensures ValidateInput(data, m')
    decreases data
  {
    match data
    case Dict(es) =>
      forall i | 0 <= i < |es|
        ensures ValidateInput(es[i].key, m' / 10) && ValidateInput(es[i].val, m')
      {
        ValidateInputMonotone(es[i].key, m / 10, m' / 10);
        ValidateInputMonotone(es[i].val, m, m');
      }
    case List(xs) =>
      forall i | 0 <= i < |xs| ensures ValidateInput(xs[i], m') {
        ValidateInputMonotone(xs[i], m, m');
      }
    case _ =>
  }

  /** A `<script` tag in any letter case, anywhere in a string, is refused at every limit. */
  lemma ScriptTagRejected(pre: string, tag: string, post: string, m: int)
    requires LowerStr(tag) == "<script"
    ensures !ValidateInput(Str(pre + tag + post), m)
  {
    var l := LowerStr(pre + tag + post);
    LowerAppend(pre + tag, post);
    LowerAppend(pre, tag);
    ContainsMiddle(LowerStr(pre), "<script", LowerStr(post));
    assert Contains(l, DangerousPatterns[0]);
  }

  /** A list is accepted exactly when every item is, each against the full limit. */
  lemma ListItemsChecked(xs: seq<Value>, m: int)
    ensures ValidateInput(List(xs), m) <==> forall i :: 0 <= i < |xs| ==> ValidateInput(xs[i], m)
  {
  }

  /** Joining two lists accepts exactly when both parts are accepted: the item loop stops at the first refusal. */
  lemma ListConcat(xs: seq<Value>, ys: seq<Value>, m: int)
    ensures ValidateInput(List(xs + ys), m) <==> ValidateInput(List(xs), m) && ValidateInput(List(ys), m)
  {
    var zs := xs + ys;
    assert forall i :: 0 <= i < |xs| ==> zs[i] == xs[i];
    assert forall i :: 0 <= i < |ys| ==> zs[|xs| + i] == ys[i];
  }

  /** A dict is accepted exactly when every key passes at a tenth of the limit and every value at the full limit. */
  lemma DictEntriesChecked(es: seq<Entry>, m: int)
    ensures ValidateInput(Dict(es), m)
            <==> forall i :: 0 <= i < |es| ==> ValidateInput(es[i].key, m / 10) && ValidateInput(es[i].val, m)
  {
  }

  /**
   * One more entry with a string key: the dict stays accepted exactly when
   * the key is within a tenth of the limit and safe, and the value passes
   * at the full limit.
   */
  lemma DictKeyLimit(es: seq<Entry>, k: string, v: Value, m: int)
    ensures ValidateInput(Dict(es + [Entry(Str(k), v)]), m)
            <==> ValidateInput(Dict(es), m) && |k| <= m / 10 && !Dangerous(k) && ValidateInput(v, m)
  {
    var fs := es + [Entry(Str(k), v)];
    assert forall i :: 0 <= i < |es| ==> fs[i] == es[i];
    assert fs[|es|].key == Str(k) && fs[|es|].val == v;
    DictEntriesChecked(fs, m);
    DictEntriesChecked(es, m);
  }
}

=== FILE: seed.dfy ===
/**
 * `init_test_data` of grid_optimization/core/initialization.py: clear the
 * grid-state table and add three samples for each of four regions, two
 * hours apart, each region six hours after the previous one. The clock
 * reading `now - 2 days` is the parameter `base` (seconds).
 */
module Seed {
  import opened Common
  import opened Store
  import Engine

  /** One entry of the `test_data` list. */
  datatype Profile = Profile(region: string, demand: real, supply: real)

  const TestData: seq<Profile> := [
    Profile("us-west", 1000.0, 1100.0),
    Profile("us-east", 1500.0, 1550.0),
    Profile("us-central", 800.0, 850.0),
    Profile("pgae", 1200.0, 1250.0)
  ]

  const Hour := 3600

  /** Sample `j` of region `i`: `j * 10 - 10` on demand, `j * 15 - 15` on supply, `6i + 2j` hours after `base`. */
  function Sample(base: int, i: nat, j: nat): (s: GridState)
    requires i < |TestData| && j < 3
    ensures s.region == TestData[i].region
    ensures s.demand == TestData[i].demand + (j * 10 - 10) as real
    ensures s.supply == TestData[i].supply + (j * 15 - 15) as real
    ensures s.timestamp == base + (6 * i + 2 * j) * Hour
  {
    NewGridState(TestData[i].region, TestData[i].demand + (j * 10 - 10) as real,
                 TestData[i].supply + (j * 15 - 15) as real, base + (i * 6 + j * 2) * Hour)
  }

  /** The rows in the order the nested loops add them: row `3i + j` is sample `j` of region `i`. */
  function SeedRows(base: int): (rows: seq<GridState>)
    ensures |rows| == 3 * |TestData|
    ensures forall k :: 0 <= k < |rows| ==> rows[k] == Sample(base, k / 3, k % 3)
  {
    seq(3 * |TestData|, k requires 0 <= k < 3 * |TestData| => Sample(base, k / 3, k % 3))
  }

  /** `init_test_data`: every earlier grid state is deleted, the results table is untouched. */
  function InitTestData(db: Db, base: int): (db': Db)
    ensures db'.states == SeedRows(base)
    ensures db'.results == db.results
  {
    Db(SeedRows(base), db.results)
  }

  /** Seeding adds exactly twelve rows, three per region. */
  lemma TwelveSamples(db: Db, base: int)
    ensures |InitTestData(db, base).states| == 12
    ensures forall i :: 0 <= i < |TestData| ==>
              |set k | 0 <= k < 12 && InitTestData(db, base).states[k].region == TestData[i].region| == 3
  {
    var rows := InitTestData(db, base).states;
    forall i | 0 <= i < |TestData|
      ensures |set k | 0 <= k < 12 && rows[k].region == TestData[i].region| == 3
    {
      forall k | 0 <= k < 12
        ensures rows[k].region == TestData[i].region <==> k / 3 == i
      {
        RowRegion(base, k, i);
      }
      assert (set k | 0 <= k < 12 && rows[k].region == TestData[i].region) == {3 * i, 3 * i + 1, 3 * i + 2};
    }
  }

  /** Row `k` belongs to region `i` exactly when it was added in the `i`-th pass of the outer loop. */
  lemma RowRegion(base: int, k: nat, i: nat)
    requires k < 12 && i < |TestData|
    ensures SeedRows(base)[k].region == TestData[i].region <==> k / 3 == i
  {
    RegionsDistinct();
  }

  /** Timestamps strictly increase in table order, so all twelve are distinct. */
  lemma TimestampsIncrease(base: int)
    ensures forall a, b :: 0 <= a < b < |SeedRows(base)| ==> SeedRows(base)[a].timestamp < SeedRows(base)[b].timestamp
  {
    var rows := SeedRows(base);
    forall a, b | 0 <= a < b < |rows|
      ensures rows[a].timestamp < rows[b].timestamp
    {
      HoursIncrease(a, b);
    }
  }

  lemma HoursIncrease(a: nat, b: nat)
    requires a < b < 12
    ensures 6 * (a / 3) + 2 * (a % 3) < 6 * (b / 3) + 2 * (b % 3)
  {
  }

  /** Distinct timestamps make every newest-first query answer unique. */
  lemma SeedTimesDistinct(base: int)
    ensures forall x, y :: x in SeedRows(base) && y in SeedRows(base) && StateTime(x) == StateTime(y) ==> x == y
  {
    TimestampsIncrease(base);
    var rows := SeedRows(base);
    forall x, y | x in rows && y in rows && StateTime(x) == StateTime(y)
      ensures x == y
    {
      var a :| 0 <= a < |rows| && rows[a] == x;
      var b :| 0 <= b < |rows| && rows[b] == y;
    }
  }

  /** The four seeded regions are distinct. */
  lemma RegionsDistinct()
    ensures forall a, b :: 0 <= a < b < |TestData| ==> TestData[a].region != TestData[b].region
  {
  }

  /** Optimising a seeded region solves that region's last sample, the one of the newest timestamp. */
  lemma SeededRegionSolvesLastSample(db: Db, base: int, i: nat, minimise: Engine.Minimiser, now: int)
    requires i < |TestData|
    ensures Engine.OptimizeGrid(InitTestData(db, base), Some(TestData[i].region), minimise, now).reply
            == Engine.Solve(Sample(base, i, 2), minimise)
  {
    LastSampleIsLatest(base, i);
    SeedLatestIsUnique(db, base, Some(TestData[i].region), minimise, now, Sample(base, i, 2));
  }

  /** The third sample of a region is a newest row for that region. */
  lemma LastSampleIsLatest(base: int, i: nat)
    requires i < |TestData|
    ensures IsLatest(SeedRows(base), Some(TestData[i].region), StateRegion, StateTime, Sample(base, i, 2))
  {
    var rows := SeedRows(base);
    var region := Some(TestData[i].region);
    var x := rows[3 * i + 2];
    assert (3 * i + 2) / 3 == i && (3 * i + 2) % 3 == 2;
    assert x == Sample(base, i, 2);
    forall y | y in rows && Selects(region, StateRegion(y))
      ensures StateTime(y) <= StateTime(x)
    {
      var k :| 0 <= k < |rows| && rows[k] == y;
      assert TestData[i].region != "";
      RowRegion(base, k, i);
      assert y == Sample(base, i, k % 3);
    }
  }

  /** With no region, optimising the seeded table solves the newest sample of all: pgae's last, at hour 22. */
  lemma SeededGlobalLatest(db: Db, base: int, minimise: Engine.Minimiser, now: int)
    ensures Engine.OptimizeGrid(InitTestData(db, base), None, minimise, now).reply
            == Engine.Solve(Sample(base, 3, 2), minimise)
    ensures Sample(base, 3, 2).region == "pgae" && Sample(base, 3, 2).timestamp == base + 22 * Hour
  {
    var rows := SeedRows(base);
    var x := rows[11];
    TimestampsIncrease(base);
    forall y | y in rows
      ensures StateTime(y) <= StateTime(x)
    {
      var k :| 0 <= k < |rows| && rows[k] == y;
    }
    assert IsLatest(rows, None, StateRegion, StateTime, x);
    SeedLatestIsUnique(db, base, None, minimise, now, x);
  }

  /** The reply of an optimisation on the seeded table is the solution of the one admissible sample. */
  lemma SeedLatestIsUnique(db: Db, base: int, region: Option<string>, minimise: Engine.Minimiser, now: int, x: GridState)
    requires IsLatest(SeedRows(base), region, StateRegion, StateTime, x)
    ensures Engine.OptimizeGrid(InitTestData(db, base), region, minimise, now).reply == Engine.Solve(x, minimise)
  {
    var rows := SeedRows(base);
    var latest := Latest(rows, region, StateRegion, StateTime);
    assert latest.Some?;
    SeedTimesDistinct(base);
    LatestUniqueWhenTimesDistinct(rows, region, StateRegion, StateTime, latest.value, x);
  }

  /** The newest us-west sample has demand 1010 and supply 1115, the figures an optimisation of us-west works from. */
  lemma SeededUsWest(db: Db, base: int, minimise: Engine.Minimiser, now: int)
    ensures var reply := Engine.OptimizeGrid(InitTestData(db, base), Some("us-west"), minimise, now).reply;
            && reply.Optimized?
            && reply.region == "us-west"
            && reply.optimizedDemand == 1010.0
            && reply.optimizedSupply == minimise(1010.0, 1115.0)
  {
    SeededRegionSolvesLastSample(db, base, 0, minimise, now);
  }

  /**
   * The region filter is exact: a name the seed does not use, or a seeded
   * name in another case, finds no sample and gets the error.
   */
  lemma SeededUnknownRegionFails(db: Db, base: int, region: string, minimise: Engine.Minimiser, now: int)
    requires region != "" && forall i :: 0 <= i < |TestData| ==> region != TestData[i].region
    ensures Engine.OptimizeGrid(InitTestData(db, base), Some(region), minimise, now)
            == Engine.Outcome(InitTestData(db, base), Engine.OptimizeError(Engine.NoStateError))
  {
    var rows := SeedRows(base);
    forall y | y in rows
      ensures !Selects(Some(region), y.region)
    {
      var k :| 0 <= k < |rows| && rows[k] == y;
    }
  }

  /** "US-West" is not "us-west": the seeded table has nothing for it. */
  lemma SeededMixedCaseFails(db: Db, base: int, minimise: Engine.Minimiser, now: int)
    ensures Engine.OptimizeGrid(InitTestData(db, base), Some("US-West"), minimise, now).reply.OptimizeError?
  {
    SeededUnknownRegionFails(db, base, "US-West", minimise, now);
  }
}

=== FILE: store.dfy ===
/**
 * The two append-only tables of grid_optimization/core/database.py as
 * in-memory sequences, and the "filter by region, newest first" query both
 * engines run against them.
 */
module Store {
  import opened Common

  /** A `grid_state` row; the last three columns carry their table defaults. */
  datatype GridState = GridState(
    region: string,
    demand: real,
    supply: real,
    currentLoad: real,
    capacity: real,
    efficiency: real,
    timestamp: int)

  /** A new `grid_state` row with the column defaults of the table. */
  function NewGridState(region: string, demand: real, supply: real, timestamp: int): (s: GridState)
    ensures s.region == region && s.demand == demand && s.supply == supply && s.timestamp == timestamp
    ensures s.currentLoad == 0.0 && s.capacity == 1000.0 && s.efficiency == 85.0
  {
    GridState(region, demand, supply, 0.0, 1000.0, 85.0, timestamp)
  }

  /** An `optimization_result` row. */
  datatype OptimizationResult = OptimizationResult(
    region: string,
    optimizedSupply: real,
    optimizedDemand: real,
    losses: real,
    timestamp: int)

  /** The database: both tables in insertion order. Timestamps are integers (seconds). */
  datatype Db = Db(states: seq<GridState>, results: seq<OptimizationResult>)

  function StateRegion(s: GridState): string { s.region }
  function StateTime(s: GridState): int { s.timestamp }
  function ResultRegion(r: OptimizationResult): string { r.region }
  function ResultTime(r: OptimizationResult): int { r.timestamp }

  /**
   * The region filter `if region: query.filter(T.region == region)`: a
   * missing or empty region selects every row, any other region selects
   * the rows whose region is exactly equal to it (no case folding).
   */
  predicate Selects(region: Option<string>, rowRegion: string)
  {
    region.None? || region.value == "" || region.value == rowRegion
  }

  /** The rows the filter keeps, in table order. */
  function Matching<T(==,!new)>(rows: seq<T>, region: Option<string>, regionOf: T -> string): (r: seq<T>)
    ensures forall x :: x in r <==> x in rows && Selects(region, regionOf(x))
    ensures |r| <= |rows|
  {
    if |rows| == 0 then []
    else
      var prefix := Matching(rows[..|rows| - 1], region, regionOf);
      var last := rows[|rows| - 1];
      assert forall x :: x in rows <==> x in rows[..|rows| - 1] || x == last;
      if Selects(region, regionOf(last)) then prefix + [last] else prefix
  }

  /**
   * `order_by(T.timestamp.desc()).first()`: a row of greatest timestamp.
   * Which of several rows sharing the greatest timestamp the database
   * returns is unspecified; this definition returns the first in table
   * order. The one-pass scans keep the same row, and `ScanIsLatest` and
   * the tool equalities built on it rely on that shared choice; the engine's
   * and the front-ends' contracts promise only a row of greatest timestamp.
   */
  function Newest<T(==,!new)>(rows: seq<T>, timeOf: T -> int): (r: Option<T>)
    ensures r.None? <==> |rows| == 0
    ensures r.Some? ==> r.value in rows && forall x :: x in rows ==> timeOf(x) <= timeOf(r.value)
  {
    if |rows| == 0 then None
    else
      var best := Newest(rows[..|rows| - 1], timeOf);
      var last := rows[|rows| - 1];
      assert forall x :: x in rows <==> x in rows[..|rows| - 1] || x == last;
      if best.None? || timeOf(last) > timeOf(best.value) then Some(last) else best
  }

  lemma MatchingSnoc<T(!new)>(rows: seq<T>, x: T, region: Option<string>, regionOf: T -> string)
    ensures Matching(rows + [x], region, regionOf)
            == if Selects(region, regionOf(x)) then Matching(rows, region, regionOf) + [x] else Matching(rows, region, regionOf)
  {
    assert (rows + [x])[..|rows|] == rows;
  }

  lemma NewestSnoc<T(!new)>(rows: seq<T>, x: T, timeOf: T -> int)
    ensures var best := Newest(rows, timeOf);
            Newest(rows + [x], timeOf) == if best.None? || timeOf(x) > timeOf(best.value) then Some(x) else best
  {
    assert (rows + [x])[..|rows|] == rows;
  }

  /** `x` is a row the filtered, newest-first query may return. */
  predicate IsLatest<T(==,!new)>(rows: seq<T>, region: Option<string>, regionOf: T -> string, timeOf: T -> int, x: T)
  {
    && x in rows
    && Selects(region, regionOf(x))
    && forall y :: y in rows && Selects(region, regionOf(y)) ==> timeOf(y) <= timeOf(x)
  }

  /** The filtered, newest-first query: absent exactly when no row passes the filter. */
  function Latest<T(==,!new)>(rows: seq<T>, region: Option<string>, regionOf: T -> string, timeOf: T -> int): (r: Option<T>)
    ensures r.None? <==> forall x :: x in rows ==> !Selects(region, regionOf(x))
    ensures r.Some? ==> IsLatest(rows, region, regionOf, timeOf, r.value)
  {
    var candidates := Matching(rows, region, regionOf);
    var r := Newest(candidates, timeOf);
    assert r.None? ==> forall x :: x in rows ==> x !in candidates;
    r
  }

  /** Extending the table by one row changes the query's answer only if that row is selected and strictly newer. */
  lemma LatestStep<T(!new)>(rows: seq<T>, i: nat, region: Option<string>, regionOf: T -> string, timeOf: T -> int)
    requires i < |rows|
    ensures var best := Newest(Matching(rows[..i], region, regionOf), timeOf);
            var row := rows[i];
            Newest(Matching(rows[..i + 1], region, regionOf), timeOf)
            == if Selects(region, regionOf(row)) && (best.None? || timeOf(row) > timeOf(best.value)) then Some(row) else best
  {
    var row := rows[i];
    var before := Matching(rows[..i], region, regionOf);
    assert rows[..i + 1] == rows[..i] + [row];
    MatchingSnoc(rows[..i], row, region, regionOf);
    if Selects(region, regionOf(row)) {
      NewestSnoc(before, row, timeOf);
    }
  }

  /**
   * The same query as one pass over the table: each row replaces the
   * answer so far when it is selected and strictly newer.
   */
  function Scan<T>(rows: seq<T>, region: Option<string>, regionOf: T -> string, timeOf: T -> int): Option<T>
  {
    if |rows| == 0 then None
    else
      var best := Scan(rows[..|rows| - 1], region, regionOf, timeOf);
      var row := rows[|rows| - 1];
      if Selects(region, regionOf(row)) && (best.None? || timeOf(row) > timeOf(best.value)) then Some(row) else best
  }

  /** The one-pass scan answers exactly what filter-then-newest answers. */
  lemma {:induction false} ScanIsLatest<T(!new)>(rows: seq<T>, region: Option<string>, regionOf: T -> string, timeOf: T -> int)
    ensures Scan(rows, region, regionOf, timeOf) == Latest(rows, region, regionOf, timeOf)
  {
    if |rows| > 0 {
      var n := |rows| - 1;
      var row := rows[n];
      var best := Scan(rows[..n], region, regionOf, timeOf);
      calc {
        Scan(rows, region, regionOf, timeOf);
        if Selects(region, regionOf(row)) && (best.None? || timeOf(row) > timeOf(best.value)) then Some(row) else best;
      == { ScanIsLatest(rows[..n], region, regionOf, timeOf); LatestStep(rows, n, region, regionOf, timeOf); }
        Newest(Matching(rows[..n + 1], region, regionOf), timeOf);
      == { assert rows[..n + 1] == rows; }
        Latest(rows, region, regionOf, timeOf);
      }
    }
  }

  /** A selected row appended after every row it is strictly newer than is what the query answers next. */
  lemma LatestOfNewerAppend<T(!new)>(rows: seq<T>, x: T, region: Option<string>, regionOf: T -> string, timeOf: T -> int)
    requires Selects(region, regionOf(x))
    requires forall y :: y in rows ==> timeOf(y) < timeOf(x)
    ensures Latest(rows + [x], region, regionOf, timeOf) == Some(x)
  {
    var r := Latest(rows + [x], region, regionOf, timeOf);
    assert x in rows + [x];
    assert r.Some? && timeOf(x) <= timeOf(r.value);
    assert r.value in rows + [x];
  }

  /** When timestamps are distinct, every admissible answer of the query is the same row. */
  lemma LatestUniqueWhenTimesDistinct<T(!new)>(rows: seq<T>, region: Option<string>, regionOf: T -> string, timeOf: T -> int, x: T, y: T)
    requires forall a, b :: a in rows && b in rows && timeOf(a) == timeOf(b) ==> a == b
    requires IsLatest(rows, region, regionOf, timeOf, x) && IsLatest(rows, region, regionOf, timeOf, y)
    ensures x == y
  {
  }
}

=== FILE: text.dfy ===
/**
 * The slice of Python's `str` behaviour the core relies on, restricted to
 * ASCII: `lower()`, `strip()`, `split()` with no separator, and the
 * substring test `p in s`.
 */
module Text {
  import opened Common

  /** `str.isspace()` on ASCII: tab through carriage return, the four separators 0x1C-0x1F, and space. */
  predicate IsSpace(c: char)
  {
    (9 <= c as int <= 13) || (28 <= c as int <= 32)
  }

  predicate IsUpper(c: char)
  {
    'A' <= c <= 'Z'
  }

  predicate IsDigit(c: char)
  {
    '0' <= c <= '9'
  }

  /** `str.isalnum()` on ASCII. */
  predicate IsAlnum(c: char)
  {
    IsDigit(c) || IsUpper(c) || ('a' <= c <= 'z')
  }

  /** `str.lower()` on one ASCII character. */
  function Lower(c: char): (r: char)
    ensures !IsUpper(r)
    ensures IsSpace(r) <==> IsSpace(c)
    ensures IsAlnum(r) <==> IsAlnum(c)
    ensures !IsUpper(c) ==> r == c
  {
    if IsUpper(c) then (c as int + 32) as char else c
  }

  /** A string that `lower()` leaves unchanged. */
  predicate IsLower(s: string)
  {
    forall i :: 0 <= i < |s| ==> !IsUpper(s[i])
  }

  /** `str.lower()`. */
  function LowerStr(s: string): (r: string)
    ensures |r| == |s|
    ensures forall i :: 0 <= i < |s| ==> r[i] == Lower(s[i])
    ensures IsLower(r)
    ensures forall c :: c in r ==> !IsUpper(c)
  {
    seq(|s|, i requires 0 <= i < |s| => Lower(s[i]))
  }

  lemma LowerOfLower(s: string)
    requires IsLower(s)
    ensures LowerStr(s) == s
  {
  }

  lemma LowerAppend(a: string, b: string)
    ensures LowerStr(a + b) == LowerStr(a) + LowerStr(b)
  {
  }

  predicate AllSpace(s: string)
  {
    forall i :: 0 <= i < |s| ==> IsSpace(s[i])
  }

  /** `str.lstrip()`: the suffix left after dropping leading whitespace. */
  function LStrip(s: string): (r: string)
    ensures |r| <= |s| && r == s[|s| - |r|..]
    ensures AllSpace(s[..|s| - |r|])
    ensures |r| > 0 ==> !IsSpace(r[0])
  {
    if |s| > 0 && IsSpace(s[0]) then LStrip(s[1..]) else s
  }

  /** `str.rstrip()`: the prefix left after dropping trailing whitespace. */
  function RStrip(s: string): (r: string)
    ensures |r| <= |s| && r == s[..|r|]
    ensures AllSpace(s[|r|..])
    ensures |r| > 0 ==> !IsSpace(r[|r| - 1])
  {
    if |s| > 0 && IsSpace(s[|s| - 1]) then RStrip(s[..|s| - 1]) else s
  }

  /** `str.strip()`. */
  function Strip(s: string): (r: string)
  {
    RStrip(LStrip(s))
  }

  /** The stripped text is a contiguous slice of the input framed by whitespace only. */
  lemma StripFrames(s: string) returns (i: nat, j: nat)
    ensures i <= j <= |s|
    ensures Strip(s) == s[i..j]
    ensures AllSpace(s[..i]) && AllSpace(s[j..])
  {
    var l := LStrip(s);
    var r := RStrip(l);
    i := |s| - |l|;
    j := i + |r|;
    assert l == s[i..];
    assert r == s[i..j];
    assert s[j..] == l[|r|..];
  }

  lemma {:induction false} LStripLower(s: string)
    ensures LowerStr(LStrip(s)) == LStrip(LowerStr(s))
    decreases |s|
  {
    if |s| > 0 && IsSpace(s[0]) {
      assert LowerStr(s)[1..] == LowerStr(s[1..]);
      LStripLower(s[1..]);
    }
  }

  lemma {:induction false} RStripLower(s: string)
    ensures LowerStr(RStrip(s)) == RStrip(LowerStr(s))
    decreases |s|
  {
    if |s| > 0 && IsSpace(s[|s| - 1]) {
      assert LowerStr(s)[..|s| - 1] == LowerStr(s[..|s| - 1]);
      RStripLower(s[..|s| - 1]);
    }
  }

  /** Stripping and lower-casing commute on ASCII text. */
  lemma StripLowerCommute(s: string)
    ensures LowerStr(Strip(s)) == Strip(LowerStr(s))
  {
    LStripLower(s);
    RStripLower(LStrip(s));
  }

  lemma {:induction false} LStripSpacePrefix(pre: string, s: string)
    requires AllSpace(pre)
    ensures LStrip(pre + s) == LStrip(s)
    decreases |pre|
  {
    if |pre| > 0 {
      assert (pre + s)[1..] == pre[1..] + s;
      LStripSpacePrefix(pre[1..], s);
    } else {
      assert pre + s == s;
    }
  }

  lemma {:induction false} RStripSpaceSuffix(s: string, post: string)
    requires AllSpace(post)
    ensures RStrip(s + post) == RStrip(s)
    decreases |post|
  {
    if |post| > 0 {
      assert (s + post)[..|s + post| - 1] == s + post[..|post| - 1];
      RStripSpaceSuffix(s, post[..|post| - 1]);
    } else {
      assert s + post == s;
    }
  }

  lemma {:induction false} LStripAppend(a: string, b: string)
    ensures LStrip(a + b) == if |LStrip(a)| == 0 then LStrip(b) else LStrip(a) + b
    decreases |a|
  {
    if |a| == 0 {
      assert a + b == b;
    } else if IsSpace(a[0]) {
      assert (a + b)[1..] == a[1..] + b;
      LStripAppend(a[1..], b);
    }
  }

  /** Whitespace around a string does not change what `strip()` returns. */
  lemma StripIgnoresPadding(pre: string, core: string, post: string)
    requires AllSpace(pre) && AllSpace(post)
    ensures Strip(pre + core + post) == Strip(core)
  {
    assert pre + core + post == pre + (core + post);
    LStripSpacePrefix(pre, core + post);
    LStripAppend(core, post);
    if |LStrip(core)| == 0 {
      LStripSpacePrefix(post, []);
      assert post + [] == post;
    } else {
      RStripSpaceSuffix(LStrip(core), post);
    }
  }

  /** `s.startswith(p)`. */
  predicate StartsWith(s: string, p: string)
  {
    |p| <= |s| && s[..|p|] == p
  }

  /** Python's substring test `p in s`. */
  predicate Contains(s: string, p: string)
    decreases |s|
  {
    StartsWith(s, p) || (|s| > 0 && Contains(s[1..], p))
  }

  /** A substring of a string is a substring of any extension of it. */
  lemma {:induction false} ContainsAppend(s: string, t: string, p: string)
    requires Contains(s, p)
    ensures Contains(s + t, p) && Contains(t + s, p)
    decreases |s|
  {
    ContainsRight(s, t, p);
    ContainsLeft(t, s, p);
  }

  lemma {:induction false} ContainsRight(s: string, t: string, p: string)
    requires Contains(s, p)
    ensures Contains(s + t, p)
    decreases |s|
  {
    if StartsWith(s, p) {
      assert (s + t)[..|p|] == s[..|p|];
    } else {
      assert (s + t)[1..] == s[1..] + t;
      ContainsRight(s[1..], t, p);
    }
  }

  lemma {:induction false} ContainsLeft(t: string, s: string, p: string)
    requires Contains(s, p)
    ensures Contains(t + s, p)
    decreases |t|
  {
    if |t| == 0 {
      assert t + s == s;
    } else {
      assert (t + s)[1..] == t[1..] + s;
      ContainsLeft(t[1..], s, p);
    }
  }

  /** `p in s` holds as soon as `p` occurs at some position `i`. */
  lemma {:induction false} ContainsAt(s: string, p: string, i: nat)
    requires i + |p| <= |s| && s[i..i + |p|] == p
    ensures Contains(s, p)
    decreases i
  {
    if i > 0 {
      assert s[1..][i - 1..i - 1 + |p|] == s[i..i + |p|];
      ContainsAt(s[1..], p, i - 1);
    }
  }

  lemma ContainsMiddle(a: string, p: string, b: string)
    ensures Contains(a + p + b, p)
  {
    assert (a + p + b)[|a|..|a| + |p|] == p;
    ContainsAt(a + p + b, p, |a|);
  }

  /** A substring of the first of two space-separated words is a substring of both. */
  lemma ContainsBeforeSpace(a: string, b: string, p: string)
    requires Contains(a, p)
    ensures Contains(a + " " + b, p)
  {
    ContainsRight(a, " " + b, p);
    assert a + (" " + b) == a + " " + b;
  }

  /** Every character of a substring occurs in the enclosing string. */
  lemma {:induction false} ContainsChars(s: string, p: string)
    requires Contains(s, p)
    ensures forall c :: c in p ==> c in s
    decreases |s|
  {
    if StartsWith(s, p) {
      forall c | c in p ensures c in s {
        var k :| 0 <= k < |p| && p[k] == c;
        assert s[k] == c;
      }
    } else {
      ContainsChars(s[1..], p);
      forall c | c in s[1..] ensures c in s {
        var k :| 0 <= k < |s[1..]| && s[1..][k] == c;
        assert s[k + 1] == c;
      }
    }
  }

  /** A pattern with a character the text lacks does not occur in it. */
  lemma NotContainsByChar(s: string, p: string, c: char)
    requires c in p && c !in s
    ensures !Contains(s, p)
  {
    if Contains(s, p) {
      ContainsChars(s, p);
    }
  }

  predicate NoSpace(s: string)
  {
    forall i :: 0 <= i < |s| ==> !IsSpace(s[i])
  }

  /** Every character of `w` occurs in `s`. */
  predicate CharsIn(w: string, s: string)
  {
    forall i :: 0 <= i < |w| ==> w[i] in s
  }

  /** Text with no whitespace at either end is its own `strip()`. */
  lemma StripUnpadded(s: string)
    requires |s| > 0 ==> !IsSpace(s[0]) && !IsSpace(s[|s| - 1])
    ensures Strip(s) == s
  {
  }

  /** Number of leading non-whitespace characters. */
  function TokenLength(s: string): (n: nat)
    ensures n <= |s|
    ensures forall i :: 0 <= i < n ==> !IsSpace(s[i])
    ensures n < |s| ==> IsSpace(s[n])
  {
    if |s| == 0 || IsSpace(s[0]) then 0 else 1 + TokenLength(s[1..])
  }

  /** `str.split()` with no separator: the maximal runs of non-whitespace, in order. */
  function Split(s: string): (r: seq<string>)
    ensures forall w :: w in r ==> |w| > 0 && NoSpace(w) && CharsIn(w, s)
    decreases |s|
  {
    var t := LStrip(s);
    if |t| == 0 then []
    else
      var n := TokenLength(t);
      var rest := Split(t[n..]);
      SplitPieces(s, t, n, rest);
      [t[..n]] + rest
  }

  /** The first token and the tokens of the remainder are all non-empty, space-free pieces of `s`. */
  lemma SplitPieces(s: string, t: string, n: nat, rest: seq<string>)
    requires |t| <= |s| && t == s[|s| - |t|..] && 0 < n <= |t|
    requires forall i :: 0 <= i < n ==> !IsSpace(t[i])
    requires forall w :: w in rest ==> |w| > 0 && NoSpace(w) && CharsIn(w, t[n..])
    ensures forall w :: w in [t[..n]] + rest ==> |w| > 0 && NoSpace(w) && CharsIn(w, s)
  {
    forall w | w in [t[..n]] + rest
      ensures |w| > 0 && NoSpace(w) && CharsIn(w, s)
    {
      if w in rest {
        assert CharsIn(w, t[n..]);
        forall i | 0 <= i < |w| ensures w[i] in s {
          assert w[i] in t[n..];
          var k :| 0 <= k < |t[n..]| && t[n..][k] == w[i];
          assert s[|s| - |t| + n + k] == w[i];
        }
      } else {
        assert w == t[..n];
        forall i | 0 <= i < |w| ensures w[i] in s {
          assert s[|s| - |t| + i] == w[i];
        }
      }
    }
  }

  lemma SplitSpaceFirst(rest: string)
    ensures Split(" " + rest) == Split(rest)
  {
    assert (" " + rest)[1..] == rest;
    assert LStrip(" " + rest) == LStrip(rest);
  }

  /** A leading word followed by a space splits off as the first token. */
  lemma SplitWord(w: string, rest: string)
    requires |w| > 0 && NoSpace(w)
    ensures Split(w + " " + rest) == [w] + Split(rest)
  {
    var s := w + " " + rest;
    assert s == w + (" " + rest);
    assert s[0] == w[0];
    assert LStrip(s) == s;
    TokenLengthOfWord(w, " " + rest);
    assert TokenLength(s) == |w|;
    assert s[..|w|] == w;
    assert s[|w|..] == " " + rest;
    assert Split(s) == [w] + Split(" " + rest);
    SplitSpaceFirst(rest);
  }

  /** A single word is a one-token split. */
  lemma SplitLastWord(w: string)
    requires |w| > 0 && NoSpace(w)
    ensures Split(w) == [w]
  {
    assert LStrip(w) == w;
    TokenLengthOfWord(w, "");
    assert w + "" == w;
    assert w[|w|..] == "";
  }

  /** Lower-casing two words joined by a space lower-cases each word and keeps them unspaced. */
  lemma LowerTwoWords(a: string, b: string)
    ensures LowerStr(a + " " + b) == LowerStr(a) + " " + LowerStr(b)
    ensures NoSpace(a) ==> NoSpace(LowerStr(a))
    ensures NoSpace(b) ==> NoSpace(LowerStr(b))
  {
    LowerAppend(a + " ", b);
    LowerAppend(a, " ");
  }

  /** Two words separated by one space split into exactly those two tokens. */
  lemma SplitTwoWords(a: string, b: string)
    requires |a| > 0 && NoSpace(a) && |b| > 0 && NoSpace(b)
    ensures Split(a + " " + b) == [a, b]
  {
    SplitWord(a, b);
    SplitLastWord(b);
  }

  lemma {:induction false} TokenLengthOfWord(w: string, rest: string)
    requires NoSpace(w) && (|rest| > 0 ==> IsSpace(rest[0]))
    ensures TokenLength(w + rest) == |w|
    decreases |w|
  {
    if |w| == 0 {
      assert w + rest == rest;
    } else {
      assert (w + rest)[1..] == w[1..] + rest;
      TokenLengthOfWord(w[1..], rest);
    }
  }

  /** Every token of lower-cased text is lower-case. */
  lemma SplitLower(s: string)
    requires IsLower(s)
    ensures forall w :: w in Split(s) ==> IsLower(w)
  {
  }

  /** No word before position `n` satisfies `isKey`. */
  predicate NoKeyBefore(words: seq<string>, isKey: string -> bool, n: int)
  {
    forall j :: 0 <= j < n && j < |words| ==> !isKey(words[j])
  }

  /**
   * The word after the first word satisfying `isKey` that is not the last
   * word: the `for i, w in enumerate(words): if key(w) and i + 1 < len(words)`
   * scan both region extractors use.
   */
  function FollowerOfFirst(words: seq<string>, isKey: string -> bool): (r: Option<string>)
    ensures r.None? <==> NoKeyBefore(words, isKey, |words| - 1)
    ensures r.Some? ==> exists i :: 0 <= i < |words| - 1 && isKey(words[i]) && r.value == words[i + 1]
                                    && NoKeyBefore(words, isKey, i)
    ensures r.Some? ==> r.value in words
  {
    if |words| < 2 then None
    else if isKey(words[0]) then Some(words[1])
    else
      var r := FollowerOfFirst(words[1..], isKey);
      FollowerShift(words, isKey, r);
      r
  }

  /** The scan past a first word that is not a key: positions in the tail move up by one. */
  lemma FollowerShift(words: seq<string>, isKey: string -> bool, r: Option<string>)
    requires |words| >= 2 && !isKey(words[0])
    requires r.None? <==> NoKeyBefore(words[1..], isKey, |words| - 2)
    requires r.Some? ==> exists i :: 0 <= i < |words| - 2 && isKey(words[1..][i]) && r.value == words[1..][i + 1]
                                     && NoKeyBefore(words[1..], isKey, i)
    requires r.Some? ==> r.value in words[1..]
    ensures r.None? <==> NoKeyBefore(words, isKey, |words| - 1)
    ensures r.Some? ==> exists i :: 0 <= i < |words| - 1 && isKey(words[i]) && r.value == words[i + 1]
                                    && NoKeyBefore(words, isKey, i)
    ensures r.Some? ==> r.value in words
  {
    var tail := words[1..];
    assert forall i :: 1 <= i < |words| ==> words[i] == tail[i - 1];
    if r.Some? {
      var i :| 0 <= i < |words| - 2 && isKey(tail[i]) && r.value == tail[i + 1] && NoKeyBefore(tail, isKey, i);
      assert isKey(words[i + 1]) && r.value == words[i + 2];
      assert NoKeyBefore(words, isKey, i + 1);
    }
  }
}
